=== FILE: README.md ===
# Heartify heart-rate pipeline, modelled in Dafny

Heartify stores heart-rate samples (a maximum, average and minimum BPM and a
creation time) in a document store. The data server has four jobs:

- it accepts new samples through `/insertData`;
- it answers `/maxHR` with the newest sample;
- it serves three analytics reports: today's samples, a per-day summary of the
  last week, and a per-week-of-month summary of the last month;
- it watches the store's change stream and broadcasts every insert, update and
  delete as a `heartRateUpdate` event.

The analytics page loads the three reports. It patches a live event into its
daily list. For a reading or a delete it also re-fetches the two summaries,
unless a successful re-fetch was recorded 30 seconds or less earlier; a
failed re-fetch records nothing, so the next event tries again. It shows five
summary figures for the active tab.

This project models that core as pure functions over immutable data:

- `Options`, `Seqs` and `Sorting`: an option type, filter/map on sequences, and
  the stable sort by creation time that every store query and the page's
  re-sort use;
- `Readings` and `HeartRate`: the BPM triple, sums, extremes,
  `Math.round(sum / count)`, and the stored sample;
- `Calendar`: the week-of-month formula and the `YYYY-M-Wn` key, with a parser
  that proves the key loses nothing;
- `Queries`: the time-window queries, the latest-sample lookup, `/maxHR` and
  `/insertData`;
- `ChangeStream`: how a change record is turned into emitted events;
- `Aggregation` and `Reports`: the grouping and summarising behind the weekly
  and monthly reports, and the three report endpoints;
- `Analytics`: the page's event handler, throttle and summary figures;
- `Pipeline`: end-to-end lemmas comparing the patched daily list with a
  re-fetch of the daily report. The server's day window and the page's local
  midnight are separate parameters, because the page tests a live reading
  against its own clock. After a live delete event the two lists are equal,
  and the latest event that follows keeps them equal when creation times are
  distinct, no sample lies at or after midnight tomorrow, and the page's
  midnight is not earlier than the server's. After a live insert they are
  equal, except that the new row has no `_id`, when the page's midnight is
  not after the new sample's time. Because
  of that missing id, a later delete of the same sample leaves the live row in
  place (`Analytics.DeleteKeepsLocalRows`), and from then on the page differs
  from a re-fetch.

Time is an integer count of milliseconds. The wall clock, local midnight and
the JavaScript `Date` field accessors are parameters (`CalendarView`, and
`midnightToday`, `now` and similar arguments). The outcome of the background
re-fetch is a parameter too.

Three behaviours of the code are kept as written:

- The summaries start the running minimum at 0 and treat 0 as "not yet set".
  So a sample with `minBPM` 0 is overwritten by the next sample's minimum.
  `Aggregation.ZeroMinimumIsOverwritten` and
  `Aggregation.ZeroMinimumBreaksOrdering` exhibit this. For numeric request
  fields, `/insertData` rejects a missing or zero `minbpm`, so a store written
  that way never triggers the quirk (`Queries.InsertDataKeepsNoZeroMinimum`,
  `Reports.ReportMinimumIsLowest`). The endpoint's test is JavaScript
  truthiness, however: a string `"0"` passes it and the schema's `Number`
  field stores it as 0. A writer that omits the field gets the schema default
  0 (`HeartRate.NewSampleKeepsNoZeroMinimum`).
- The weekly report groups by UTC calendar date, so it has one bucket per day:
  two samples on consecutive days give two weekly buckets, not one. Buckets
  per week come only from the monthly report.
- The server emits only on the unscoped channel `heartRateUpdate`. The page
  listens only on `heartRateUpdate:<heartifyID>`, so it receives nothing
  (`ChangeStream.ScopedChannelReceivesNothing`). The client handler and the
  `Pipeline` lemmas describe what the handler does with a payload when one
  does arrive.

## Model

| member | source | states |
|---|---|---|
| HeartRate.NewSampleKeepsNoZeroMinimum | backend/models/heartRateMonitor.js:17-21 | saving a sample keeps a store free of zero minima exactly when its `minBPM` is given and non-zero; an omitted one takes the default 0 |
| Sorting.SortByKey | frontend/src/views/Analytics.tsx:169-171 | the sorted list is a permutation of its input (same length and multiset) and is ordered by creation time |
| Queries.Query | backend/dataServer.js:188-191 | a window query's result is ordered by ascending `createdAt` and is never longer than the store |
| Queries.QueryContents | backend/dataServer.js:209-212 | a sample occurs in a window query exactly when it is stored and its time is inside the window, and it occurs as often as it is stored |
| Queries.QueryAfterAppend | backend/dataServer.js:188-191 | adding a sample inside the window splices it into the previous result after every sample with an equal or earlier time |
| Queries.Latest | backend/dataServer.js:97 | there is no latest sample exactly when the store is empty; otherwise it is a stored sample that no other sample postdates |
| Queries.MaxHR | backend/dataServer.js:148-155 | `/maxHR` returns at most one sample; it is empty exactly when the store is; the sample is stored and no stored sample is newer |
| Queries.InsertData | backend/dataServer.js:158-177 | the answer is 201 exactly when all three fields are present and non-zero, and then one sample carrying those values, the new id and the save time is appended; otherwise the answer is 400 and the store is unchanged |
| Queries.InsertedIsLatest | backend/dataServer.js:148-177 | a sample accepted after every stored one becomes what `/maxHR` and the delete path see as latest |
| Queries.InsertDataKeepsNoZeroMinimum | backend/dataServer.js:160-169 | with numeric body fields, a store without zero minima keeps that property through every `/insertData` call, accepted or rejected |
| Queries.QueryKeepsNoZeroMinimum | backend/dataServer.js:259-262 | a window query of a store without zero minima has none either |
| Queries.LatestOfStrictlyNewest | backend/dataServer.js:150 | a sample appended with a time later than all others is the latest |
| ChangeStream.Normalise | backend/dataServer.js:52-108 | an insert gives one insert event with the record's statistics and creation time; an update gives one update event if the looked-up document exists and none otherwise; a delete gives a delete event with the id, then a latest event for the newest remaining record exactly when one remains; any other change gives nothing; everything goes to `heartRateUpdate` |
| ChangeStream.NormaliseAll | backend/dataServer.js:50-108 | a run of changes emits only the four server operations, all on the unscoped channel |
| ChangeStream.LatestFollowsDelete | backend/dataServer.js:85-106 | when each change is handled before the next arrives, each latest event in the emitted stream comes directly after a delete event |
| ChangeStream.ScopedChannelReceivesNothing | frontend/src/views/Analytics.tsx:130 | the page's per-user listener receives no event from any run of changes |
| ChangeStream.UnscopedChannelReceivesAll | backend/dataServer.js:59 | a listener on `heartRateUpdate` receives every emitted payload, in order |
| Readings.RoundedMean | backend/dataServer.js:239 | the result is the integer nearest to sum/count, with halves rounded up, as `Math.round` does |
| Readings.RoundedMeanWithin | backend/dataServer.js:294 | the rounded mean of values between two bounds stays between them |
| Readings.RoundedMeanMonotone | frontend/src/views/Analytics.tsx:406-408 | a larger sum over the same count never gives a smaller rounded mean |
| Readings.RoundedMeanOfOne | backend/dataServer.js:239 | the rounded mean of one integer is that integer |
| Readings.Highest | frontend/src/views/Analytics.tsx:411 | the highest value bounds every row and is attained by one |
| Readings.Lowest | frontend/src/views/Analytics.tsx:412 | the lowest value is bounded by every row and is attained by one |
| Aggregation.Absorb | backend/dataServer.js:228-232 | one record raises the count by one and the sum by its average; the maximum becomes the larger of the two; a running minimum of 0 is replaced by the record's, and any other becomes the smaller of the two |
| Aggregation.TallyOf | backend/dataServer.js:228-232 | the running tally counts every record, sums the averages, has a maximum of at least 0 that bounds every maximum, and, when no minimum is 0, has a minimum bounded by every minimum |
| Aggregation.TallySnoc | backend/dataServer.js:216-233 | absorbing one more record extends the tally of the earlier records |
| Aggregation.TallyMaxAttained | backend/dataServer.js:228 | with non-negative maxima, the tally's maximum is one of the records' maxima |
| Aggregation.TallyMinAttained | backend/dataServer.js:230-231 | with no zero minimum, the tally's minimum is one of the records' minima |
| Aggregation.TallyExtremes | backend/dataServer.js:283-286 | under those conditions the tally's extremes are the highest maximum and the lowest minimum |
| Aggregation.Summarise | backend/dataServer.js:236-241 | a bucket's maximum bounds all maxima and is the highest when they are non-negative; its average is the rounded mean; its minimum is the lowest when no minimum is 0 |
| Aggregation.SummariseSingle | backend/dataServer.js:291-296 | a bucket of one sample with a non-negative maximum reports that sample's statistics |
| Aggregation.SummariseOrdered | backend/dataServer.js:283-296 | for samples with min <= avg <= max and no zero minimum, the bucket keeps min <= avg <= max |
| Aggregation.ZeroMinimumIsOverwritten | backend/dataServer.js:230-231 | a sample with minimum 0 between two others gives a bucket minimum of 70 where the lowest minimum is 0 |
| Aggregation.ZeroMinimumBreaksOrdering | backend/dataServer.js:285-286 | a zero minimum followed by a larger sample gives a bucket whose minimum (80) exceeds its average (48) |
| Aggregation.TwoRecordBucket | backend/dataServer.js:228-240 | two samples 80/70/60 and 90/75/65 summarise to 90/73/60 |
| Aggregation.BucketMinimumIsLowest | backend/dataServer.js:285-286 | when no record has a zero minimum, every bucket's minimum is the lowest minimum of the records in it |
| Aggregation.FirstOccurrences | backend/dataServer.js:218-226 | the group keys are exactly the keys that occur, each once |
| Aggregation.Members | backend/dataServer.js:215-233 | the readings gathered for key k are those of exactly the records with key k, in order |
| Aggregation.GroupRecords | backend/dataServer.js:215-233 | the scan builds at most one bucket per record, no two buckets share a key, and every bucket counts at least one record |
| Aggregation.GroupRecordsCorrect | backend/dataServer.js:214-233 | group i has the i-th distinct key in first-occurrence order, and its tally is the tally of exactly the records with that key, in order |
| Aggregation.GroupCountsPositive | backend/dataServer.js:232 | every group counts at least one record, so the division by `count` is defined |
| Aggregation.GroupCountsTotal | backend/dataServer.js:265-288 | the group counts add up to the number of records |
| Aggregation.FirstOccurrencesOrdered | backend/dataServer.js:236 | buckets come out in the order their keys first occur |
| Aggregation.Aggregate | backend/dataServer.js:214-241 | the report has one bucket per distinct key, in first-occurrence order, and each bucket summarises the non-empty list of its records |
| Aggregation.AggregateKeys | backend/dataServer.js:264-296 | bucket keys are distinct, are exactly the records' keys, follow first-occurrence order, and there are no buckets exactly when there are no records |
| Calendar.WeekOfMonth | backend/dataServer.js:268-269 | the week number is the smallest w with day + first weekday <= 7w |
| Calendar.WeekOfMonthRange | backend/dataServer.js:268 | for days 1 to 31 and weekdays 0 to 6 the week number is between 1 and 6, and day 1 is in week 1 |
| Calendar.WeekOfMonthMonotone | backend/dataServer.js:269 | a later day of the same month is never in an earlier week |
| Calendar.WeekOfInRange | backend/dataServer.js:267-271 | for calendar fields in range, a timestamp's key has its year, a month from 1 to 12 and a week from 1 to 6 |
| Calendar.WeekOfMonotoneInMonth | backend/dataServer.js:267-268 | within one month, a timestamp on an earlier day never lies in a later week |
| Calendar.DecimalRoundTrip | backend/dataServer.js:271 | the decimal text of a number reads back as that number |
| Calendar.WeekKey | backend/dataServer.js:271 | the `YYYY-M-Wn` key parses back to its year, month and week |
| Calendar.WeekKeyInjective | backend/dataServer.js:273 | different (year, month, week) triples never share a key |
| Reports.DailyReport | backend/dataServer.js:180-197 | the daily report is ordered by creation time and holds exactly the stored samples from local midnight today up to, not including, midnight tomorrow |
| Reports.WeeklyReport | backend/dataServer.js:200-247 | the weekly report has distinct keys, and one key per UTC date of a stored sample inside the window, and no others |
| Reports.MonthlyReport | backend/dataServer.js:250-302 | the monthly report has distinct keys, and one key per week key of a stored sample inside the window, and no others |
| Reports.ReportKeys | backend/dataServer.js:209-241 | a report has a bucket for a key exactly when some stored sample inside the window has that key |
| Reports.ReportMinimumIsLowest | backend/dataServer.js:228-231 | for a store without zero minima, each report bucket's minimum is the lowest minimum of its records |
| Reports.MonthKeySeparatesWeeks | backend/dataServer.js:264-273 | two samples share a monthly bucket exactly when they fall in the same year, month and week of month |
| Analytics.RefreshAggregates | frontend/src/views/Analytics.tsx:180-201 | the daily list is never touched; when a refresh is due and both fetches succeed the two lists are replaced and `now` is recorded; otherwise nothing changes |
| Analytics.HandleEvent | frontend/src/views/Analytics.tsx:134-233 | an event that is neither a reading nor a delete with a non-empty id changes nothing; the daily list grows by at most one row; a delete only removes rows |
| Analytics.FindTimestamp | frontend/src/views/Analytics.tsx:147-149 | the index found is the first row with the given time, and nothing is found exactly when no row has it |
| Analytics.MergeReading | frontend/src/views/Analytics.tsx:147-172 | afterwards some row shows the reading's time and statistics and every other row is an old one; the list keeps its length when the time was present and grows by one otherwise |
| Analytics.MergeOverwritesFirstMatch | frontend/src/views/Analytics.tsx:147-158 | a reading at a time already present overwrites only the statistics of the first such row; that row's id and time and every other row are kept |
| Analytics.MergeInsertsNewRow | frontend/src/views/Analytics.tsx:159-172 | a reading at a new time adds exactly one row without an id and leaves the list sorted; a sorted list gets the row spliced in after every row with an equal or earlier time |
| Analytics.RemoveById | frontend/src/views/Analytics.tsx:202-208 | no remaining row carries the deleted id, every remaining row is an old one, and every old row with another or no id remains |
| Analytics.RemoveByIdContents | frontend/src/views/Analytics.tsx:206-208 | deleting by id keeps exactly the rows whose id differs, each as often as before |
| Analytics.DeleteKeepsLocalRows | frontend/src/views/Analytics.tsx:161-166 | rows added from live readings have no id and survive every delete |
| Analytics.DeleteOfUnknownIdIsIdentity | frontend/src/views/Analytics.tsx:207 | deleting an id that no row carries leaves the list unchanged |
| Analytics.UnknownOperationIsIgnored | frontend/src/views/Analytics.tsx:134-233 | an event whose operation is not a reading or a delete changes nothing |
| Analytics.DeleteWithoutIdIsIgnored | frontend/src/views/Analytics.tsx:202-204 | a delete without a non-empty document id changes nothing, including the throttle |
| Analytics.EarlyReadingLeavesDaily | frontend/src/views/Analytics.tsx:136-140 | a reading from before local midnight today leaves the daily list as it was |
| Analytics.HandleEventAggregates | frontend/src/views/Analytics.tsx:178-231 | the weekly and monthly lists and the stored time change only for a reading or an identified delete, when a refresh is due and both fetches succeed, and then take the fetched lists and `now` |
| Analytics.ThrottleWindow | frontend/src/views/Analytics.tsx:184 | with nothing stored a refresh is always due; after one at time t the next is due exactly at times more than 30000 ms later |
| Analytics.HandleEventKeepsDailySorted | frontend/src/views/Analytics.tsx:141-208 | handling any event keeps a sorted daily list sorted by creation time |
| Analytics.RenderStats | frontend/src/views/Analytics.tsx:400-412 | no figures exactly when the list is empty; otherwise the highest bounds every maximum and is one, the lowest is bounded by every minimum and is one, and each average is the rounded mean of its column |
| Analytics.RenderStatsOrdered | frontend/src/views/Analytics.tsx:406-412 | for rows with min <= avg <= max: lowest <= mean minimum <= mean average <= mean maximum <= highest |
| Analytics.StatsOfTab | frontend/src/views/Analytics.tsx:400-412 | the active tab shows no figures exactly when its list is empty; otherwise its highest is the largest maximum and its lowest the smallest minimum among that list's rows |
| Pipeline.Loaded | frontend/src/views/Analytics.tsx:76-90 | the loaded daily list is sorted and holds exactly today's stored samples, with their ids |
| Pipeline.LiveInsertMatchesRefetch | frontend/src/views/Analytics.tsx:134-172 | after an accepted insert, when the page's midnight is not after the new sample's time, the patched daily list equals a re-fetched one except that the new row has no id |
| Pipeline.LiveDeleteMatchesRefetch | frontend/src/views/Analytics.tsx:202-208 | after a delete event the patched daily list equals the re-fetched one exactly, whatever the page's midnight |
| Pipeline.LatestEventKeepsDaily | backend/dataServer.js:96-105 | the latest event after a delete leaves a matching daily list unchanged, if creation times are distinct, none is in the future, and the page's midnight is not earlier than the server's |
| Pipeline.DeleteThenLatestMatchesRefetch | backend/dataServer.js:85-106 | if creation times are distinct, no stored sample is at or after midnight tomorrow, and the page's midnight is not earlier than the server's, both events of a delete that leaves samples, handled in turn, give the re-fetched daily list |
| Pipeline.FutureSampleBreaksDeleteThenLatest | backend/dataServer.js:96-105 | with one sample today and another at or after midnight tomorrow, deleting the first empties the re-fetched daily list, yet the latest event for the second adds a row to the patched one |
| Pipeline.LatePageMidnightDropsInsert | frontend/src/views/Analytics.tsx:136-140 | when the page's midnight is later than the new sample's time, an accepted insert leaves the patched daily list unchanged while the re-fetched one gains a row |
| Pipeline.EarlyPageMidnightBreaksDeleteThenLatest | frontend/src/views/Analytics.tsx:136-140 | with one sample today and another before the server's midnight but not before the page's, deleting the first empties the re-fetched daily list, yet the latest event for the second adds a row to the patched one |

## Left out

- Authentication, sign-up, login, cookies and the ML prediction service (`backend/mlOps.py`, `MlForm`): they are outside the data path.
- Socket transport, rooms and `join`, connection and error callbacks, the chart pulse animation and all rendering: the model keeps only the data each event carries.
- Error responses 401 and 500 from failed authentication or store exceptions: the model assumes store calls succeed.
- The JavaScript `Date` arithmetic (local time zone, `setHours`, `setDate`, `setMonth`, `toISOString`): these are parameters, not computed.
- Floating point: statistics and sums are integers, and `Math.round` is modelled exactly on integer sums. Fractional or non-numeric request values are not modelled.
- `ChangeStream.LatestFollowsDelete`: changes are modelled as handled one at a time. The server's change handler is asynchronous: it emits the delete event, waits for the newest-record lookup, and only then emits the latest event, so another change's events can land in between (two quick deletes can give delete, delete, latest, latest).
- Concurrency: the background re-fetch is applied in the same step as the event, its outcome a parameter. Until one re-fetch has succeeded and recorded its time, every further event starts another, and these overlapping fetches all run and may finish in any order; neither this nor React's deferred state updates are modelled.
- The per-user filters in the queries and the `userId`/`heartifyID` fields written by `/insertData` are commented out in the code, so they are not modelled.
- The store's `updatedAt` timestamp: nothing in the core reads it.
- The order of samples with equal `createdAt` in a store query: the model sorts stably in insertion order.
- `Queries.InsertData`: a body value is either absent or an integer. JavaScript truthiness of strings, `NaN` and `null` is not modelled.
- `Queries.InsertDataKeepsNoZeroMinimum`: holds for numeric request fields only. A string such as `"0"` is truthy, passes the test at backend/dataServer.js:161, and the schema casts it to the number 0, so the endpoint itself can store a zero minimum.
- `Sorting.SortByKey`: its own contract does not state stability. `Sorting.AppendThenSortIsInsert` and `Sorting.InsertSplices` state it for the case the page uses.
- `Analytics.RefreshAggregates`: the stored time is assumed to read back through `parseInt` unchanged.
- `Pipeline.DeleteThenLatestMatchesRefetch`: it requires distinct creation times and no stored sample at or after midnight tomorrow. With a later sample the latest event adds a row that a re-fetch lacks (`Pipeline.FutureSampleBreaksDeleteThenLatest`); with two samples at the same time the latest reading can overwrite the other one's row. It also requires the page's midnight to be no earlier than the server's; with an earlier one the page accepts a reading from before the server's day (`Pipeline.EarlyPageMidnightBreaksDeleteThenLatest`).
- `Pipeline.LatestEventKeepsDaily`: it requires distinct creation times, no sample in the future, and a page midnight no earlier than the server's, for the reasons given for `Pipeline.DeleteThenLatestMatchesRefetch`.
- `Pipeline.LiveInsertMatchesRefetch`: it assumes the page's midnight is not after the saved sample's time; otherwise the page drops the reading that a re-fetch shows (`Pipeline.LatePageMidnightDropsInsert`). It assumes the saved sample is newer than every stored one. It does not cover an update event, because the server has no endpoint that updates a sample.

=== FILE: aggregation.dfy ===
/** Grouping of the queried records into buckets and the per-bucket
    statistics of the weekly (per UTC day) and monthly (per week of month)
    reports. */
module Aggregation {

  import opened Options
  import opened Seqs
  import opened Readings
  import opened HeartRate

  /** The running totals of one bucket while the records are scanned: the
      object created with all fields 0 and updated once per record. */
  datatype Tally = Tally(maxBPM: int, avgSum: int, minBPM: int, count: nat)

  const EmptyTally: Tally := Tally(0, 0, 0, 0)

  /** One record's update of a bucket. `minBPM == 0` is read as "not set yet",
      so a stored minimum of 0 is replaced by the next record's minimum. */
  function Absorb(t: Tally, b: Bpm): (r: Tally)
    ensures r.count == t.count + 1 && r.avgSum == t.avgSum + b.avgBPM
    ensures t.maxBPM <= r.maxBPM && b.maxBPM <= r.maxBPM
    ensures r.maxBPM == t.maxBPM || r.maxBPM == b.maxBPM
    ensures t.minBPM == 0 ==> r.minBPM == b.minBPM
    ensures t.minBPM != 0 ==>
      r.minBPM <= t.minBPM && r.minBPM <= b.minBPM && (r.minBPM == t.minBPM || r.minBPM == b.minBPM)
  {
    Tally(
      Max(t.maxBPM, b.maxBPM),
      t.avgSum + b.avgBPM,
      if t.minBPM == 0 then b.minBPM else Min(t.minBPM, b.minBPM),
      t.count + 1)
  }

  /** The totals after absorbing `bs` in order into a fresh bucket. */
  function TallyOf(bs: seq<Bpm>): (t: Tally)
    ensures t.count == |bs|
    ensures t.avgSum == Sum(bs, AvgField)
    ensures t.maxBPM >= 0
    ensures forall i | 0 <= i < |bs| :: bs[i].maxBPM <= t.maxBPM
    ensures (forall i | 0 <= i < |bs| :: bs[i].minBPM != 0) ==>
      (|bs| == 0 <==> t.minBPM == 0) && forall i | 0 <= i < |bs| :: t.minBPM <= bs[i].minBPM
  {
    if |bs| == 0 then EmptyTally
    else Absorb(TallyOf(bs[..|bs| - 1]), bs[|bs| - 1])
  }

  lemma TallySnoc(bs: seq<Bpm>, b: Bpm)
    ensures TallyOf(bs + [b]) == Absorb(TallyOf(bs), b)
  {
    assert (bs + [b])[..|bs|] == bs;
  }

  /** With non-negative maxima the bucket maximum is attained by a member. */
  lemma {:induction false} TallyMaxAttained(bs: seq<Bpm>)
    requires |bs| > 0
    requires forall i | 0 <= i < |bs| :: bs[i].maxBPM >= 0
    ensures exists i | 0 <= i < |bs| :: bs[i].maxBPM == TallyOf(bs).maxBPM
  {
    var n := |bs| - 1;
    if n > 0 && TallyOf(bs[..n]).maxBPM > bs[n].maxBPM {
      TallyMaxAttained(bs[..n]);
      var k :| 0 <= k < n && bs[..n][k].maxBPM == TallyOf(bs[..n]).maxBPM;
      assert bs[k] == bs[..n][k];
    } else if n > 0 {
      assert bs[n].maxBPM == TallyOf(bs).maxBPM;
    } else {
      assert bs[0].maxBPM == TallyOf(bs).maxBPM;
    }
  }

  /** With no member minimum equal to 0 the bucket minimum is attained by a member. */
  lemma {:induction false} TallyMinAttained(bs: seq<Bpm>)
    requires |bs| > 0
    requires forall i | 0 <= i < |bs| :: bs[i].minBPM != 0
    ensures exists i | 0 <= i < |bs| :: bs[i].minBPM == TallyOf(bs).minBPM
  {
    var n := |bs| - 1;
    if n > 0 && TallyOf(bs[..n]).minBPM < bs[n].minBPM {
      TallyMinAttained(bs[..n]);
      var k :| 0 <= k < n && bs[..n][k].minBPM == TallyOf(bs[..n]).minBPM;
      assert bs[k] == bs[..n][k];
    } else if n > 0 {
      assert bs[n].minBPM == TallyOf(bs).minBPM;
    } else {
      assert bs[0].minBPM == TallyOf(bs).minBPM;
    }
  }

  /** The bucket's maximum and minimum are the true ones under the conditions
      the 0-initialised fields need. */
  lemma TallyExtremes(bs: seq<Bpm>)
    requires |bs| > 0
    ensures (forall i | 0 <= i < |bs| :: bs[i].maxBPM >= 0) ==> TallyOf(bs).maxBPM == Highest(bs, MaxField)
    ensures (forall i | 0 <= i < |bs| :: bs[i].minBPM != 0) ==> TallyOf(bs).minBPM == Lowest(bs, MinField)
  {
    if forall i | 0 <= i < |bs| :: bs[i].maxBPM >= 0 {
      TallyMaxAttained(bs);
    }
    if forall i | 0 <= i < |bs| :: bs[i].minBPM != 0 {
      TallyMinAttained(bs);
    }
  }

  /** The emitted statistics of a non-empty bucket: maximum, `Math.round` of
      the mean of the averages, and minimum. */
  function Summarise(bs: seq<Bpm>): (r: Bpm)
    requires |bs| > 0
    ensures forall i | 0 <= i < |bs| :: bs[i].maxBPM <= r.maxBPM
    ensures (forall i | 0 <= i < |bs| :: bs[i].maxBPM >= 0) ==> r.maxBPM == Highest(bs, MaxField)
    ensures 2 * |bs| * r.avgBPM <= 2 * Sum(bs, AvgField) + |bs| < 2 * |bs| * (r.avgBPM + 1)
    ensures (forall i | 0 <= i < |bs| :: bs[i].minBPM != 0) ==> r.minBPM == Lowest(bs, MinField)
  {
    var t := TallyOf(bs);
    TallyExtremes(bs);
    Bpm(t.maxBPM, RoundedMean(t.avgSum, t.count), t.minBPM)
  }

  /** A bucket of one record repeats that record's statistics (a negative
      maximum would be raised to the initial 0). */
  lemma SummariseSingle(b: Bpm)
    requires b.maxBPM >= 0
    ensures Summarise([b]) == b
  {
    TallySnoc([], b);
    assert [] + [b] == [b];
    RoundedMeanOfOne(b.avgBPM);
  }

  /** When every record has `minBPM <= avgBPM <= maxBPM` and no minimum is 0,
      the bucket keeps the same ordering. */
  lemma SummariseOrdered(bs: seq<Bpm>)
    requires |bs| > 0
    requires forall i | 0 <= i < |bs| :: bs[i].minBPM <= bs[i].avgBPM <= bs[i].maxBPM
    requires forall i | 0 <= i < |bs| :: bs[i].minBPM != 0
    ensures Summarise(bs).minBPM <= Summarise(bs).avgBPM <= Summarise(bs).maxBPM
  {
    var r := Summarise(bs);
    var t := TallyOf(bs);
    SumBounds(bs, AvgField, r.minBPM, r.maxBPM);
    RoundedMeanWithin(t.avgSum, t.count, r.minBPM, r.maxBPM);
  }

  /** The 0 sentinel forgets a stored minimum of 0: the next record's minimum
      replaces it, so the bucket minimum is not the least member minimum. */
  lemma ZeroMinimumIsOverwritten()
    ensures var bs := [Bpm(70, 65, 60), Bpm(10, 5, 0), Bpm(90, 80, 70)];
      Summarise(bs).minBPM == 70 && Lowest(bs, MinField) == 0
  {
    var bs := [Bpm(70, 65, 60), Bpm(10, 5, 0), Bpm(90, 80, 70)];
    assert bs[..2] == [Bpm(70, 65, 60), Bpm(10, 5, 0)];
    assert bs[..2][..1] == [Bpm(70, 65, 60)];
    assert TallyOf(bs[..2][..1]).minBPM == 60;
    assert TallyOf(bs[..2]).minBPM == 0;
    assert TallyOf(bs).minBPM == 70;
  }

  /** Because of the sentinel a bucket of ordered records can come out with a
      minimum above its average. */
  lemma ZeroMinimumBreaksOrdering()
    ensures Summarise([Bpm(10, 5, 0), Bpm(100, 90, 80)]) == Bpm(100, 48, 80)
  {
    var bs := [Bpm(10, 5, 0), Bpm(100, 90, 80)];
    assert bs[..1] == [Bpm(10, 5, 0)];
    assert TallyOf(bs[..1]) == Tally(10, 5, 0, 1);
    assert TallyOf(bs) == Tally(100, 95, 80, 2);
    assert RoundedMean(95, 2) == 48;
  }

  /** Two records `{80, 70, 60}` and `{90, 75, 65}` in one bucket give
      maximum 90, minimum 60 and average `round(72.5) = 73`. */
  lemma TwoRecordBucket()
    ensures Summarise([Bpm(80, 70, 60), Bpm(90, 75, 65)]) == Bpm(90, 73, 60)
  {
    var bs := [Bpm(80, 70, 60), Bpm(90, 75, 65)];
    assert bs[..1] == [Bpm(80, 70, 60)];
    assert TallyOf(bs[..1]) == Tally(80, 70, 60, 1);
    assert TallyOf(bs) == Tally(90, 145, 60, 2);
    assert RoundedMean(145, 2) == 73;
  }

  /** No key occurs twice. */
  predicate Distinct(ks: seq<string>) {
    forall i, j | 0 <= i < j < |ks| :: ks[i] != ks[j]
  }

  /** The bucket key of every record, in record order. */
  function KeysOf(rs: seq<Sample>, keyOf: Sample -> string): (r: seq<string>)
    ensures |r| == |rs|
    ensures forall i | 0 <= i < |rs| :: r[i] == keyOf(rs[i])
  {
    MapSeq(keyOf, rs)
  }

  /** Each key once, in the order of its first occurrence. */
  function FirstOccurrences(ks: seq<string>): (r: seq<string>)
    ensures forall k :: k in r <==> k in ks
    ensures Distinct(r)
  {
    if |ks| == 0 then []
    else
      var earlier := FirstOccurrences(ks[..|ks| - 1]);
      var k := ks[|ks| - 1];
      assert forall x :: x in ks <==> x in ks[..|ks| - 1] || x == k by {
        assert ks == ks[..|ks| - 1] + [k];
      }
      if k in earlier then earlier else earlier + [k]
  }

  /** The records whose key is `k`. */
  function HasKey(keyOf: Sample -> string, k: string): Sample -> bool {
    (s: Sample) => keyOf(s) == k
  }

  /** The readings of the records whose key is `k`, in record order: the
      readings of the records that a filter on the key keeps. */
  function Members(rs: seq<Sample>, keyOf: Sample -> string, k: string): (r: seq<Bpm>)
    ensures |r| <= |rs|
    ensures r == MapSeq(BpmOf, Filter(rs, HasKey(keyOf, k)))
  {
    if |rs| == 0 then []
    else
      var n := |rs| - 1;
      var last := if keyOf(rs[n]) == k then [rs[n]] else [];
      MapSeqAppend(BpmOf, Filter(rs[..n], HasKey(keyOf, k)), last);
      Members(rs[..n], keyOf, k) + (if keyOf(rs[n]) == k then [rs[n].bpm] else [])
  }

  /** A bucket under construction: its key and running totals. */
  datatype Group = Group(key: string, tally: Tally)

  /** The position of the bucket for `k`: `groupedData[k]`. */
  function FindGroup(gs: seq<Group>, k: string): (r: Option<nat>)
    ensures r.Some? ==> r.value < |gs| && gs[r.value].key == k
    ensures r.None? ==> forall i | 0 <= i < |gs| :: gs[i].key != k
  {
    if |gs| == 0 then None
    else if gs[0].key == k then Some(0)
    else
      match FindGroup(gs[1..], k)
      case None => None
      case Some(i) => Some(i + 1)
  }

  /** One iteration of the `forEach`: create the bucket for `k` if missing, then absorb `b`. */
  function AddRecord(gs: seq<Group>, k: string, b: Bpm): seq<Group> {
    match FindGroup(gs, k)
    case Some(i) => gs[i := Group(k, Absorb(gs[i].tally, b))]
    case None => gs + [Group(k, Absorb(EmptyTally, b))]
  }

  /** The buckets after scanning the records in order, in bucket-creation order
      (the order `Object.values` returns non-numeric keys in). */
  function GroupRecords(rs: seq<Sample>, keyOf: Sample -> string): (r: seq<Group>)
    ensures |r| <= |rs|
    ensures forall i | 0 <= i < |r| :: r[i].tally.count >= 1
    ensures forall i, j | 0 <= i < j < |r| :: r[i].key != r[j].key
  {
    if |rs| == 0 then []
    else
      var n := |rs| - 1;
      AddRecord(GroupRecords(rs[..n], keyOf), keyOf(rs[n]), rs[n].bpm)
  }

  /** The buckets are exactly the distinct keys in first-occurrence order, each
      holding the totals of precisely the records with that key. */
  ghost predicate GroupedBy(gs: seq<Group>, rs: seq<Sample>, keyOf: Sample -> string) {
    var order := FirstOccurrences(KeysOf(rs, keyOf));
    && |gs| == |order|
    && forall i | 0 <= i < |gs| ::
         gs[i].key == order[i] && gs[i].tally == TallyOf(Members(rs, keyOf, order[i]))
  }

  lemma MembersSnoc(rs: seq<Sample>, x: Sample, keyOf: Sample -> string, k: string)
    ensures Members(rs + [x], keyOf, k) == Members(rs, keyOf, k) + (if keyOf(x) == k then [x.bpm] else [])
  {
    assert (rs + [x])[..|rs|] == rs;
  }

  /** A key no record has collects no members. */
  lemma {:induction false} MembersOfAbsentKey(rs: seq<Sample>, keyOf: Sample -> string, k: string)
    requires k !in KeysOf(rs, keyOf)
    ensures Members(rs, keyOf, k) == []
  {
    if |rs| > 0 {
      var n := |rs| - 1;
      assert KeysOf(rs, keyOf)[n] == keyOf(rs[n]);
      assert KeysOf(rs[..n], keyOf) == KeysOf(rs, keyOf)[..n];
      MembersOfAbsentKey(rs[..n], keyOf, k);
    }
  }

  /** A key some record has collects at least one member. */
  lemma {:induction false} MembersOfPresentKey(rs: seq<Sample>, keyOf: Sample -> string, k: string)
    requires k in KeysOf(rs, keyOf)
    ensures |Members(rs, keyOf, k)| > 0
  {
    var n := |rs| - 1;
    if keyOf(rs[n]) != k {
      assert KeysOf(rs, keyOf) == KeysOf(rs[..n], keyOf) + [keyOf(rs[n])];
      MembersOfPresentKey(rs[..n], keyOf, k);
    }
  }

  /** Scanning the records builds exactly the buckets `GroupedBy` describes. */
  lemma {:induction false} GroupRecordsCorrect(rs: seq<Sample>, keyOf: Sample -> string)
    ensures GroupedBy(GroupRecords(rs, keyOf), rs, keyOf)
  {
    if |rs| > 0 {
      var n := |rs| - 1;
      var p, x := rs[..n], rs[n];
      var k := keyOf(x);
      assert rs == p + [x];
      GroupRecordsCorrect(p, keyOf);
      var gs := GroupRecords(p, keyOf);
      var ks := KeysOf(p, keyOf);
      var order := FirstOccurrences(ks);
      assert KeysOf(rs, keyOf) == ks + [k];
      assert (ks + [k])[..|ks|] == ks;
      var gs' := GroupRecords(rs, keyOf);
      assert gs' == AddRecord(gs, k, x.bpm);
      match FindGroup(gs, k)
      case Some(i) =>
        assert order[i] == k;
        assert FirstOccurrences(KeysOf(rs, keyOf)) == order;
        assert gs' == gs[i := Group(k, Absorb(gs[i].tally, x.bpm))];
        forall j | 0 <= j < |gs'|
          ensures gs'[j].key == order[j] && gs'[j].tally == TallyOf(Members(rs, keyOf, order[j]))
        {
          MembersSnoc(p, x, keyOf, order[j]);
          if j == i {
            TallySnoc(Members(p, keyOf, k), x.bpm);
          } else {
            assert order[j] != k;
            assert Members(p, keyOf, order[j]) + [] == Members(p, keyOf, order[j]);
          }
        }
      case None =>
        assert k !in order;
        assert k !in ks;
        MembersOfAbsentKey(p, keyOf, k);
        assert FirstOccurrences(KeysOf(rs, keyOf)) == order + [k];
        assert gs' == gs + [Group(k, Absorb(EmptyTally, x.bpm))];
        forall j | 0 <= j < |gs'|
          ensures gs'[j].key == (order + [k])[j] && gs'[j].tally == TallyOf(Members(rs, keyOf, (order + [k])[j]))
        {
          var kj := (order + [k])[j];
          MembersSnoc(p, x, keyOf, kj);
          if j == |gs| {
            TallySnoc([], x.bpm);
            assert [] + [x.bpm] == [x.bpm];
          } else {
            assert kj == order[j] && kj != k;
            assert Members(p, keyOf, kj) + [] == Members(p, keyOf, kj);
          }
        }
    }
  }

  /** Every bucket counts at least one record. */
  lemma GroupCountsPositive(rs: seq<Sample>, keyOf: Sample -> string)
    ensures forall i | 0 <= i < |GroupRecords(rs, keyOf)| :: GroupRecords(rs, keyOf)[i].tally.count >= 1
  {
    var gs := GroupRecords(rs, keyOf);
    GroupRecordsCorrect(rs, keyOf);
    var order := FirstOccurrences(KeysOf(rs, keyOf));
    forall i | 0 <= i < |gs| ensures gs[i].tally.count >= 1 {
      assert order[i] in order;
      MembersOfPresentKey(rs, keyOf, order[i]);
    }
  }

  /** The sum of the buckets' counts. */
  function TotalCount(gs: seq<Group>): nat {
    if |gs| == 0 then 0
    else TotalCount(gs[..|gs| - 1]) + gs[|gs| - 1].tally.count
  }

  lemma {:induction false} TotalCountUpdate(gs: seq<Group>, i: nat, g: Group)
    requires i < |gs|
    ensures TotalCount(gs[i := g]) + gs[i].tally.count == TotalCount(gs) + g.tally.count
  {
    var n := |gs| - 1;
    if i < n {
      TotalCountUpdate(gs[..n], i, g);
      assert gs[i := g][..n] == gs[..n][i := g];
    } else {
      assert gs[i := g][..n] == gs[..n];
    }
  }

  lemma TotalCountSnoc(gs: seq<Group>, g: Group)
    ensures TotalCount(gs + [g]) == TotalCount(gs) + g.tally.count
  {
    assert (gs + [g])[..|gs|] == gs;
  }

  /** Every record is counted in exactly one bucket: the counts add up to the
      number of records. */
  lemma {:induction false} GroupCountsTotal(rs: seq<Sample>, keyOf: Sample -> string)
    ensures TotalCount(GroupRecords(rs, keyOf)) == |rs|
  {
    if |rs| > 0 {
      var n := |rs| - 1;
      GroupCountsTotal(rs[..n], keyOf);
      var gs := GroupRecords(rs[..n], keyOf);
      var k := keyOf(rs[n]);
      match FindGroup(gs, k)
      case Some(i) =>
        TotalCountUpdate(gs, i, Group(k, Absorb(gs[i].tally, rs[n].bpm)));
      case None =>
        TotalCountSnoc(gs, Group(k, Absorb(EmptyTally, rs[n].bpm)));
    }
  }

  /** The position of the first occurrence of `k`. */
  function FirstIndex(ks: seq<string>, k: string): (i: nat)
    requires k in ks
    ensures i < |ks| && ks[i] == k
    ensures forall j | 0 <= j < i :: ks[j] != k
  {
    if ks[0] == k then 0 else 1 + FirstIndex(ks[1..], k)
  }

  lemma {:induction false} FirstIndexSnoc(ks: seq<string>, x: string, k: string)
    requires k in ks
    ensures FirstIndex(ks + [x], k) == FirstIndex(ks, k)
  {
    var i := FirstIndex(ks, k);
    var j := FirstIndex(ks + [x], k);
    assert (ks + [x])[i] == k;
  }

  /** Every key of `r` occurs in `ks`, and earlier in `r` means earlier first occurrence in `ks`. */
  predicate InFirstOccurrenceOrder(r: seq<string>, ks: seq<string>) {
    && (forall i | 0 <= i < |r| :: r[i] in ks)
    && forall i, j | 0 <= i < j < |r| :: FirstIndex(ks, r[i]) < FirstIndex(ks, r[j])
  }

  /** Keys are listed in the order in which they first occur. */
  lemma {:induction false} FirstOccurrencesOrdered(ks: seq<string>)
    ensures InFirstOccurrenceOrder(FirstOccurrences(ks), ks)
  {
    if |ks| > 0 {
      var n := |ks| - 1;
      var p, k := ks[..n], ks[n];
      assert ks == p + [k];
      FirstOccurrencesOrdered(p);
      var earlier := FirstOccurrences(p);
      var r := FirstOccurrences(ks);
      forall i, j | 0 <= i < j < |r| ensures FirstIndex(ks, r[i]) < FirstIndex(ks, r[j]) {
        assert r[i] == earlier[i] && r[i] in p;
        FirstIndexSnoc(p, k, r[i]);
        if j < |earlier| {
          assert r[j] == earlier[j] && r[j] in p;
          FirstIndexSnoc(p, k, r[j]);
          assert FirstIndex(p, earlier[i]) < FirstIndex(p, earlier[j]);
        } else {
          assert r[j] == k && k !in p;
          assert FirstIndex(ks, k) == n;
        }
      }
    }
  }

  /** One emitted bucket: its key and statistics (`date` or `week`, then
      `maxBPM`, `avgBPM`, `minBPM`). */
  datatype Bucket = Bucket(key: string, bpm: Bpm)

  /** The final `map` over the buckets: the sum of averages becomes their rounded mean. */
  function Finish(g: Group): Bucket
    requires g.tally.count > 0
  {
    Bucket(g.key, Bpm(g.tally.maxBPM, RoundedMean(g.tally.avgSum, g.tally.count), g.tally.minBPM))
  }

  /** Groups the records by `keyOf` and summarises each group. */
  function Aggregate(rs: seq<Sample>, keyOf: Sample -> string): (r: seq<Bucket>)
    ensures |r| == |FirstOccurrences(KeysOf(rs, keyOf))|
    ensures forall i | 0 <= i < |r| :: r[i].key == FirstOccurrences(KeysOf(rs, keyOf))[i]
    ensures forall i | 0 <= i < |r| ::
      |Members(rs, keyOf, r[i].key)| > 0 && r[i].bpm == Summarise(Members(rs, keyOf, r[i].key))
  {
    var gs := GroupRecords(rs, keyOf);
    var order := FirstOccurrences(KeysOf(rs, keyOf));
    assert GroupedBy(gs, rs, keyOf) by { GroupRecordsCorrect(rs, keyOf); }
    var r := seq(|gs|, i requires 0 <= i < |gs| => Finish(gs[i]));
    assert forall i | 0 <= i < |r| ::
      |Members(rs, keyOf, r[i].key)| > 0 && r[i].bpm == Summarise(Members(rs, keyOf, r[i].key))
    by {
      forall i | 0 <= i < |r|
        ensures |Members(rs, keyOf, r[i].key)| > 0 && r[i].bpm == Summarise(Members(rs, keyOf, r[i].key))
      {
        FinishSummarises(gs[i], Members(rs, keyOf, order[i]));
      }
    }
    r
  }

  /** Finishing a group whose totals are those of `bs` gives the summary of `bs`. */
  lemma FinishSummarises(g: Group, bs: seq<Bpm>)
    requires g.tally.count > 0 && g.tally == TallyOf(bs)
    ensures |bs| > 0 && Finish(g).key == g.key && Finish(g).bpm == Summarise(bs)
  {
  }

  /** The keys of a list of buckets, in order. */
  function BucketKeys(r: seq<Bucket>): (ks: seq<string>)
    ensures |ks| == |r|
    ensures forall i | 0 <= i < |r| :: ks[i] == r[i].key
  {
    MapSeq(BucketKey, r)
  }

  function BucketKey(b: Bucket): string {
    b.key
  }

  /** The keys of a report are distinct, are exactly the keys of the records,
      appear in first-occurrence order, and an empty input gives no buckets. */
  lemma AggregateKeys(rs: seq<Sample>, keyOf: Sample -> string)
    ensures Distinct(BucketKeys(Aggregate(rs, keyOf)))
    ensures forall k :: k in BucketKeys(Aggregate(rs, keyOf)) <==> k in KeysOf(rs, keyOf)
    ensures InFirstOccurrenceOrder(BucketKeys(Aggregate(rs, keyOf)), KeysOf(rs, keyOf))
    ensures |rs| == 0 <==> |Aggregate(rs, keyOf)| == 0
  {
    var ks := KeysOf(rs, keyOf);
    var order := FirstOccurrences(ks);
    assert BucketKeys(Aggregate(rs, keyOf)) == order;
    FirstOccurrencesOrdered(ks);
    if |rs| > 0 {
      assert ks[0] in order;
    }
  }

  /** The members of a key come from the records, so they keep a non-zero minimum. */
  lemma {:induction false} MembersKeepNoZeroMinimum(rs: seq<Sample>, keyOf: Sample -> string, k: string)
    requires NoZeroMinimum(rs)
    ensures forall j | 0 <= j < |Members(rs, keyOf, k)| :: Members(rs, keyOf, k)[j].minBPM != 0
  {
    if |rs| > 0 {
      var n := |rs| - 1;
      assert NoZeroMinimum(rs[..n]) by {
        forall i | 0 <= i < n ensures rs[..n][i].bpm.minBPM != 0 {
          assert rs[..n][i] == rs[i];
        }
      }
      MembersKeepNoZeroMinimum(rs[..n], keyOf, k);
    }
  }

  /** Without zero minima the running-minimum quirk never fires: every
      bucket's minimum is the lowest minimum among its records. */
  lemma BucketMinimumIsLowest(rs: seq<Sample>, keyOf: Sample -> string)
    requires NoZeroMinimum(rs)
    ensures forall i | 0 <= i < |Aggregate(rs, keyOf)| ::
      Aggregate(rs, keyOf)[i].bpm.minBPM == Lowest(Members(rs, keyOf, Aggregate(rs, keyOf)[i].key), MinField)
  {
    var r := Aggregate(rs, keyOf);
    forall i | 0 <= i < |r| ensures r[i].bpm.minBPM == Lowest(Members(rs, keyOf, r[i].key), MinField) {
      MembersKeepNoZeroMinimum(rs, keyOf, r[i].key);
    }
  }
}

=== FILE: analytics.dfy ===
/** The analytics page's handling of a live event: the daily list is patched
    in place, and the weekly and monthly reports are re-fetched wholesale at
    most once per 30 seconds; plus the summary figures shown above the chart. */
module Analytics {

  import opened Options
  import opened Seqs
  import opened Sorting
  import opened Readings
  import opened Aggregation
  import opened ChangeStream

  /** One row of the daily list. Rows fetched from the server carry their
      `_id`; rows appended from a live event have none. */
  datatype Entry = Entry(id: Option<string>, bpm: Bpm, createdAt: int)

  function EntryTime(e: Entry): int {
    e.createdAt
  }

  /** The page state the event handler touches: the three lists and the
      `lastAggregateUpdate` time kept in session storage. */
  datatype ClientState = ClientState(
    daily: seq<Entry>,
    weekly: seq<Bucket>,
    monthly: seq<Bucket>,
    lastAggregateUpdate: Option<int>)

  /** What the background re-fetch of the two reports produced: both lists, or
      a failure (a non-OK response or a rejected request). */
  datatype FetchOutcome = Fetched(weekly: seq<Bucket>, monthly: seq<Bucket>) | FetchFailed

  /** Minimum milliseconds between two report re-fetches. */
  const RefreshInterval: int := 30000

  /** The throttle test: no re-fetch recorded yet, or the last one more than
      30 seconds before `now`. */
  predicate RefreshDue(last: Option<int>, now: int) {
    last.None? || now - last.value > RefreshInterval
  }

  /** The throttled re-fetch: when due and both fetches succeed, the two lists
      are replaced and `now` is recorded; otherwise nothing changes. */
  function RefreshAggregates(st: ClientState, now: int, fetch: FetchOutcome): (r: ClientState)
    ensures r.daily == st.daily
    ensures RefreshDue(st.lastAggregateUpdate, now) && fetch.Fetched? ==>
      r.weekly == fetch.weekly && r.monthly == fetch.monthly && r.lastAggregateUpdate == Some(now)
    ensures !(RefreshDue(st.lastAggregateUpdate, now) && fetch.Fetched?) ==> r == st
  {
    if RefreshDue(st.lastAggregateUpdate, now) then
      match fetch
      case Fetched(weekly, monthly) =>
        st.(weekly := weekly, monthly := monthly, lastAggregateUpdate := Some(now))
      case FetchFailed => st
    else st
  }

  /** The first row whose `createdAt` equals `t` (`findIndex`). */
  function FindTimestamp(daily: seq<Entry>, t: int): (r: Option<nat>)
    ensures r.Some? ==> r.value < |daily| && daily[r.value].createdAt == t
    ensures r.Some? ==> forall j | 0 <= j < r.value :: daily[j].createdAt != t
    ensures r.None? ==> forall j | 0 <= j < |daily| :: daily[j].createdAt != t
  {
    if |daily| == 0 then None
    else if daily[0].createdAt == t then Some(0)
    else
      match FindTimestamp(daily[1..], t)
      case None => None
      case Some(i) => Some(i + 1)
  }

  /** The row a live reading adds: no `_id`, `createdAt` from `timestamp`. */
  function NewEntry(reading: Reading): Entry {
    Entry(None, reading.bpm, reading.timestamp)
  }

  /** Upsert of a live reading into the daily list: overwrite the statistics of
      the first row with the same timestamp, or append a new row and re-sort. */
  function MergeReading(daily: seq<Entry>, reading: Reading): (r: seq<Entry>)
    ensures (exists j | 0 <= j < |daily| :: daily[j].createdAt == reading.timestamp) ==> |r| == |daily|
    ensures (forall j | 0 <= j < |daily| :: daily[j].createdAt != reading.timestamp) ==> |r| == |daily| + 1
    // afterwards some row shows the reading, and every other row is an old one
    ensures exists j | 0 <= j < |r| :: r[j].createdAt == reading.timestamp && r[j].bpm == reading.bpm
    ensures forall j | 0 <= j < |r| ::
      r[j] in daily || (r[j].createdAt == reading.timestamp && r[j].bpm == reading.bpm)
  {
    match FindTimestamp(daily, reading.timestamp)
    case Some(i) =>
      var r := daily[i := daily[i].(bpm := reading.bpm)];
      assert r[i].createdAt == reading.timestamp && r[i].bpm == reading.bpm;
      r
    case None =>
      AppendThenSortContents(daily, NewEntry(reading));
      SortByKey(daily + [NewEntry(reading)], EntryTime)
  }

  /** Appending a row and re-sorting yields the old rows and that row. */
  lemma AppendThenSortContents(daily: seq<Entry>, e: Entry)
    ensures exists j | 0 <= j < |SortByKey(daily + [e], EntryTime)| :: SortByKey(daily + [e], EntryTime)[j] == e
    ensures forall j | 0 <= j < |SortByKey(daily + [e], EntryTime)| ::
      SortByKey(daily + [e], EntryTime)[j] in daily || SortByKey(daily + [e], EntryTime)[j] == e
  {
    var r := SortByKey(daily + [e], EntryTime);
    assert multiset(r) == multiset(daily) + multiset{e};
    assert e in multiset(r);
    forall j | 0 <= j < |r| ensures r[j] in daily || r[j] == e {
      assert r[j] in multiset(r);
    }
  }

  /** The delete handler's filter: the rows whose `_id` differs from `id`. */
  function KeepsId(id: string): Entry -> bool {
    (e: Entry) => e.id != Some(id)
  }

  /** The rows left after a delete for `id`: none carries that `_id`, every
      row comes from the old list, and every old row with another or no
      `_id` is kept. */
  function RemoveById(daily: seq<Entry>, id: string): (r: seq<Entry>)
    ensures |r| <= |daily|
    ensures forall j | 0 <= j < |r| :: r[j].id != Some(id) && r[j] in daily
    ensures forall j | 0 <= j < |daily| && daily[j].id != Some(id) :: daily[j] in r
  {
    FilterElementsFrom(daily, KeepsId(id));
    forall j | 0 <= j < |daily| && daily[j].id != Some(id)
      ensures daily[j] in Filter(daily, KeepsId(id))
    {
      FilterMultiplicity(daily, KeepsId(id), daily[j]);
    }
    Filter(daily, KeepsId(id))
  }

  /** The operations the handler treats as readings. */
  predicate IsReadingOperation(op: string) {
    op == "insert" || op == "update" || op == "latest"
  }

  /** The socket handler for one event. `midnightToday` is local midnight,
      `now` the handler's `Date.now()`, and `fetch` what the background
      re-fetch returns if it is started. */
  function HandleEvent(st: ClientState, p: Payload, midnightToday: int, now: int, fetch: FetchOutcome): (r: ClientState)
    ensures !TriggersRefresh(p) ==> r == st
    ensures |r.daily| <= |st.daily| + 1
    ensures p.operation == "delete" ==> forall j | 0 <= j < |r.daily| :: r.daily[j] in st.daily
  {
    if IsReadingOperation(p.operation) then
      var daily :=
        if p.reading.Some? && p.reading.value.timestamp >= midnightToday
        then MergeReading(st.daily, p.reading.value)
        else st.daily;
      RefreshAggregates(st.(daily := daily), now, fetch)
    else if p.operation == "delete" then
      match p.documentId
      case Some(id) =>
        if id != "" then RefreshAggregates(st.(daily := RemoveById(st.daily, id)), now, fetch)
        else st
      case None => st
    else st
  }

  /** `i` is the first row whose `createdAt` is `t`. */
  predicate FirstMatch(daily: seq<Entry>, t: int, i: nat) {
    i < |daily| && daily[i].createdAt == t && forall j | 0 <= j < i :: daily[j].createdAt != t
  }

  /** A reading whose timestamp is already present overwrites only the three
      statistics of the first such row; its `_id` and `createdAt`, every other
      row, the length and the order stay as they were. */
  lemma MergeOverwritesFirstMatch(daily: seq<Entry>, reading: Reading, i: nat)
    requires FirstMatch(daily, reading.timestamp, i)
    ensures |MergeReading(daily, reading)| == |daily|
    ensures MergeReading(daily, reading)[i] == Entry(daily[i].id, reading.bpm, daily[i].createdAt)
    ensures forall j | 0 <= j < |daily| && j != i :: MergeReading(daily, reading)[j] == daily[j]
  {
    match FindTimestamp(daily, reading.timestamp)
    case None =>
    case Some(k) =>
      assert k == i by {
        if k < i {} else if i < k {}
      }
  }

  /** A reading with a new timestamp adds one row without `_id`; the result
      holds exactly the old rows plus that one and is sorted by `createdAt`.
      If the list was sorted, the new row is spliced in after every row with
      an equal or earlier time and the old rows keep their order. */
  lemma MergeInsertsNewRow(daily: seq<Entry>, reading: Reading)
    requires forall j | 0 <= j < |daily| :: daily[j].createdAt != reading.timestamp
    ensures var r := MergeReading(daily, reading);
      && |r| == |daily| + 1
      && multiset(r) == multiset(daily) + multiset{NewEntry(reading)}
      && SortedBy(r, EntryTime)
    ensures SortedBy(daily, EntryTime) ==>
      var p := InsertionPoint(NewEntry(reading), daily, EntryTime);
      MergeReading(daily, reading) == daily[..p] + [NewEntry(reading)] + daily[p..]
  {
    if SortedBy(daily, EntryTime) {
      AppendThenSortIsInsert(daily, NewEntry(reading), EntryTime);
      InsertSplices(NewEntry(reading), daily, EntryTime);
    }
  }

  /** Deleting by id keeps, in order, exactly the rows with another or no `_id`. */
  lemma RemoveByIdContents(daily: seq<Entry>, id: string, e: Entry)
    ensures multiset(RemoveById(daily, id))[e] == if e.id == Some(id) then 0 else multiset(daily)[e]
    ensures e in RemoveById(daily, id) <==> e in daily && e.id != Some(id)
  {
    FilterMultiplicity(daily, KeepsId(id), e);
  }

  /** Rows appended from live events have no `_id`, so a delete never removes them. */
  lemma DeleteKeepsLocalRows(daily: seq<Entry>, id: string, e: Entry)
    requires e in daily && e.id.None?
    ensures e in RemoveById(daily, id)
  {
    RemoveByIdContents(daily, id, e);
  }

  /** A delete for an id no row carries leaves the list as it is. */
  lemma DeleteOfUnknownIdIsIdentity(daily: seq<Entry>, id: string)
    requires forall j | 0 <= j < |daily| :: daily[j].id != Some(id)
    ensures RemoveById(daily, id) == daily
  {
    FilterAll(daily, KeepsId(id));
  }

  /** Events whose operation is neither a reading nor a delete change nothing. */
  lemma UnknownOperationIsIgnored(st: ClientState, p: Payload, midnightToday: int, now: int, fetch: FetchOutcome)
    requires !IsReadingOperation(p.operation) && p.operation != "delete"
    ensures HandleEvent(st, p, midnightToday, now, fetch) == st
  {
  }

  /** A delete without a (non-empty) `documentId` changes nothing, not even the throttle. */
  lemma DeleteWithoutIdIsIgnored(st: ClientState, p: Payload, midnightToday: int, now: int, fetch: FetchOutcome)
    requires p.operation == "delete"
    requires p.documentId.None? || p.documentId == Some("")
    ensures HandleEvent(st, p, midnightToday, now, fetch) == st
  {
  }

  /** A reading from before local midnight today leaves the daily list unchanged. */
  lemma EarlyReadingLeavesDaily(st: ClientState, p: Payload, midnightToday: int, now: int, fetch: FetchOutcome)
    requires IsReadingOperation(p.operation)
    requires p.reading.None? || p.reading.value.timestamp < midnightToday
    ensures HandleEvent(st, p, midnightToday, now, fetch).daily == st.daily
  {
  }

  /** The event kinds that reach the throttled re-fetch. */
  predicate TriggersRefresh(p: Payload) {
    IsReadingOperation(p.operation)
    || (p.operation == "delete" && p.documentId.Some? && p.documentId.value != "")
  }

  /** The weekly and monthly lists and the stored time change only through a
      due re-fetch whose two requests both succeed, and then they take the
      fetched lists and `now`. */
  lemma HandleEventAggregates(st: ClientState, p: Payload, midnightToday: int, now: int, fetch: FetchOutcome)
    ensures var r := HandleEvent(st, p, midnightToday, now, fetch);
      if TriggersRefresh(p) && RefreshDue(st.lastAggregateUpdate, now) && fetch.Fetched?
      then r.weekly == fetch.weekly && r.monthly == fetch.monthly && r.lastAggregateUpdate == Some(now)
      else r.weekly == st.weekly && r.monthly == st.monthly && r.lastAggregateUpdate == st.lastAggregateUpdate
  {
  }

  /** After a re-fetch recorded at `t`, the next one is due exactly at times
      more than 30 seconds later; with nothing recorded it is always due. */
  lemma ThrottleWindow(t: int, later: int)
    ensures RefreshDue(None, later)
    ensures RefreshDue(Some(t), later) <==> later > t + RefreshInterval
  {
  }

  /** The handler keeps the daily list sorted by `createdAt`. */
  lemma HandleEventKeepsDailySorted(st: ClientState, p: Payload, midnightToday: int, now: int, fetch: FetchOutcome)
    requires SortedBy(st.daily, EntryTime)
    ensures SortedBy(HandleEvent(st, p, midnightToday, now, fetch).daily, EntryTime)
  {
    if IsReadingOperation(p.operation) && p.reading.Some? && p.reading.value.timestamp >= midnightToday {
      var reading := p.reading.value;
      match FindTimestamp(st.daily, reading.timestamp)
      case Some(i) =>
        var r := MergeReading(st.daily, reading);
        assert forall j | 0 <= j < |r| :: r[j].createdAt == st.daily[j].createdAt;
      case None =>
    } else if p.operation == "delete" && p.documentId.Some? {
      FilterKeepsSorted(st.daily, KeepsId(p.documentId.value));
    }
  }

  /** Removing rows keeps the rest sorted. */
  lemma FilterKeepsSorted(daily: seq<Entry>, keep: Entry -> bool)
    requires SortedBy(daily, EntryTime)
    ensures SortedBy(Filter(daily, keep), EntryTime)
  {
    FilterAll(daily, (e: Entry) => true);
    SortCommutesWithFilter(daily, EntryTime, keep);
    SortSortedIsIdentity(daily, EntryTime);
  }

  /** The figures shown above the chart: mean of each statistic, highest
      maximum and lowest minimum. */
  datatype Summary = Summary(avgMax: int, avgAvg: int, avgMin: int, highestBPM: int, lowestBPM: int)

  /** `renderStats`: nothing for an empty list; otherwise `Math.round` of each
      mean, `Math.max` of the maxima and `Math.min` of the minima. */
  function RenderStats(rows: seq<Bpm>): (r: Option<Summary>)
    ensures r.None? <==> |rows| == 0
    ensures r.Some? ==>
      && (forall i | 0 <= i < |rows| :: rows[i].maxBPM <= r.value.highestBPM)
      && (exists i | 0 <= i < |rows| :: rows[i].maxBPM == r.value.highestBPM)
      && (forall i | 0 <= i < |rows| :: r.value.lowestBPM <= rows[i].minBPM)
      && (exists i | 0 <= i < |rows| :: rows[i].minBPM == r.value.lowestBPM)
    ensures r.Some? ==>
      && 2 * |rows| * r.value.avgMax <= 2 * Sum(rows, MaxField) + |rows| < 2 * |rows| * (r.value.avgMax + 1)
      && 2 * |rows| * r.value.avgAvg <= 2 * Sum(rows, AvgField) + |rows| < 2 * |rows| * (r.value.avgAvg + 1)
      && 2 * |rows| * r.value.avgMin <= 2 * Sum(rows, MinField) + |rows| < 2 * |rows| * (r.value.avgMin + 1)
  {
    if |rows| == 0 then None
    else
      var n := |rows|;
      Some(Summary(
        RoundedMean(Sum(rows, MaxField), n),
        RoundedMean(Sum(rows, AvgField), n),
        RoundedMean(Sum(rows, MinField), n),
        Highest(rows, MaxField),
        Lowest(rows, MinField)))
  }

  /** For rows with `minBPM <= avgBPM <= maxBPM` the figures are ordered:
      lowest <= mean minimum <= mean average <= mean maximum <= highest. */
  lemma RenderStatsOrdered(rows: seq<Bpm>)
    requires |rows| > 0
    requires forall i | 0 <= i < |rows| :: rows[i].minBPM <= rows[i].avgBPM <= rows[i].maxBPM
    ensures var s := RenderStats(rows).value;
      s.lowestBPM <= s.avgMin <= s.avgAvg <= s.avgMax <= s.highestBPM
  {
    var s := RenderStats(rows).value;
    var n := |rows|;
    SumMonotone(rows, MinField, AvgField);
    SumMonotone(rows, AvgField, MaxField);
    RoundedMeanMonotone(Sum(rows, MinField), Sum(rows, AvgField), n);
    RoundedMeanMonotone(Sum(rows, AvgField), Sum(rows, MaxField), n);
    SumBounds(rows, MinField, s.lowestBPM, s.highestBPM);
    SumBounds(rows, MaxField, s.lowestBPM, s.highestBPM);
    RoundedMeanWithin(Sum(rows, MinField), n, s.lowestBPM, s.highestBPM);
    RoundedMeanWithin(Sum(rows, MaxField), n, s.lowestBPM, s.highestBPM);
  }

  /** The three tabs of the page. */
  datatype Tab = DailyTab | WeeklyTab | MonthlyTab

  function EntryBpm(e: Entry): Bpm {
    e.bpm
  }

  function BucketBpm(b: Bucket): Bpm {
    b.bpm
  }

  /** The rows `renderStats` reduces: those of the active tab. */
  function RowsFor(st: ClientState, tab: Tab): (rows: seq<Bpm>)
    ensures tab == DailyTab ==> |rows| == |st.daily| && forall i | 0 <= i < |rows| :: rows[i] == st.daily[i].bpm
    ensures tab == WeeklyTab ==> |rows| == |st.weekly| && forall i | 0 <= i < |rows| :: rows[i] == st.weekly[i].bpm
    ensures tab == MonthlyTab ==> |rows| == |st.monthly| && forall i | 0 <= i < |rows| :: rows[i] == st.monthly[i].bpm
  {
    match tab
    case DailyTab => MapSeq(EntryBpm, st.daily)
    case WeeklyTab => MapSeq(BucketBpm, st.weekly)
    case MonthlyTab => MapSeq(BucketBpm, st.monthly)
  }

  /** The figures of the active tab: none exactly when its list is empty;
      otherwise the highest is the largest maximum among its rows and the
      lowest the smallest minimum. */
  lemma StatsOfTab(st: ClientState, tab: Tab)
    ensures RenderStats(RowsFor(st, tab)).None? <==>
      match tab
      case DailyTab => |st.daily| == 0
      case WeeklyTab => |st.weekly| == 0
      case MonthlyTab => |st.monthly| == 0
    ensures tab == DailyTab && |st.daily| > 0 ==>
      var s := RenderStats(RowsFor(st, tab)).value;
      && (forall i | 0 <= i < |st.daily| :: st.daily[i].bpm.maxBPM <= s.highestBPM && s.lowestBPM <= st.daily[i].bpm.minBPM)
      && (exists i | 0 <= i < |st.daily| :: st.daily[i].bpm.maxBPM == s.highestBPM)
      && (exists i | 0 <= i < |st.daily| :: st.daily[i].bpm.minBPM == s.lowestBPM)
    ensures tab != DailyTab ==>
      var buckets := if tab == WeeklyTab then st.weekly else st.monthly;
      |buckets| > 0 ==>
      var s := RenderStats(RowsFor(st, tab)).value;
      && (forall i | 0 <= i < |buckets| :: buckets[i].bpm.maxBPM <= s.highestBPM && s.lowestBPM <= buckets[i].bpm.minBPM)
      && (exists i | 0 <= i < |buckets| :: buckets[i].bpm.maxBPM == s.highestBPM)
      && (exists i | 0 <= i < |buckets| :: buckets[i].bpm.minBPM == s.lowestBPM)
  {
    var rows := RowsFor(st, tab);
    if |rows| > 0 {
      var s := RenderStats(rows).value;
      var i :| 0 <= i < |rows| && rows[i].maxBPM == s.highestBPM;
      var k :| 0 <= k < |rows| && rows[k].minBPM == s.lowestBPM;
    }
  }
}

=== FILE: calendar.dfy ===
/** Calendar facts the server reads from JavaScript `Date` values, and the
    week-of-month bucket key of the monthly report.

    Time zones and the Gregorian calendar are not modelled: the date parts of
    a timestamp are supplied as functions. */
module Calendar {

  import opened Options

  /** What the server's `Date` methods report for a timestamp (milliseconds). */
  datatype CalendarView = CalendarView(
    utcDate: int -> string,          // toISOString().split('T')[0], "YYYY-MM-DD"
    fullYear: int -> nat,            // getFullYear(), server-local
    month: int -> nat,               // getMonth(), 0-based, server-local
    dayOfMonth: int -> nat,          // getDate(), 1-based, server-local
    firstWeekday: (nat, nat) -> nat) // weekday of the 1st of a month, 0 = Sunday

  /** The day of the month plus the weekday of the 1st, divided by 7 and
      rounded up: the week of the month counted from
      the week holding the 1st, weeks starting on Sunday (not ISO 8601 weeks). */
  function WeekOfMonth(day: nat, firstWeekday: nat): (w: nat)
    ensures 7 * (w - 1) < day + firstWeekday <= 7 * w
  {
    (day + firstWeekday + 6) / 7
  }

  /** Days 1..31 of a month whose 1st falls on weekday 0..6 lie in weeks 1..6,
      and the 1st is always in week 1. */
  lemma WeekOfMonthRange(day: nat, firstWeekday: nat)
    requires 1 <= day <= 31 && firstWeekday <= 6
    ensures 1 <= WeekOfMonth(day, firstWeekday) <= 6
    ensures day == 1 ==> WeekOfMonth(day, firstWeekday) == 1
  {
  }

  /** Later days of the same month never fall in an earlier week. */
  lemma WeekOfMonthMonotone(d1: nat, d2: nat, firstWeekday: nat)
    requires d1 <= d2
    ensures WeekOfMonth(d1, firstWeekday) <= WeekOfMonth(d2, firstWeekday)
  {
  }

  /** The parts of a monthly bucket key: year, 1-based month, week of month. */
  datatype WeekId = WeekId(year: nat, month: nat, week: nat)

  /** The week a timestamp falls in; the key uses `getMonth() + 1`. */
  function WeekOf(cal: CalendarView, t: int): (id: WeekId)
    ensures id.month == cal.month(t) + 1
    ensures id.week == WeekOfMonth(cal.dayOfMonth(t), cal.firstWeekday(cal.fullYear(t), cal.month(t)))
  {
    var y := cal.fullYear(t);
    var m := cal.month(t);
    WeekId(y, m + 1, WeekOfMonth(cal.dayOfMonth(t), cal.firstWeekday(y, m)))
  }

  /** For calendar fields in their ranges (day 1..31, weekday 0..6, 0-based
      month 0..11) the key's month is 1..12 and its week 1..6, and its year
      is the timestamp's year. */
  lemma WeekOfInRange(cal: CalendarView, t: int)
    requires 1 <= cal.dayOfMonth(t) <= 31 && cal.month(t) <= 11
    requires cal.firstWeekday(cal.fullYear(t), cal.month(t)) <= 6
    ensures WeekOf(cal, t).year == cal.fullYear(t)
    ensures 1 <= WeekOf(cal, t).month <= 12
    ensures 1 <= WeekOf(cal, t).week <= 6
  {
    WeekOfMonthRange(cal.dayOfMonth(t), cal.firstWeekday(cal.fullYear(t), cal.month(t)));
  }

  /** Of two timestamps in the same year and month, the one on the earlier
      day never lies in a later week. */
  lemma WeekOfMonotoneInMonth(cal: CalendarView, a: int, b: int)
    requires cal.fullYear(a) == cal.fullYear(b) && cal.month(a) == cal.month(b)
    requires cal.dayOfMonth(a) <= cal.dayOfMonth(b)
    ensures WeekOf(cal, a).month == WeekOf(cal, b).month
    ensures WeekOf(cal, a).week <= WeekOf(cal, b).week
  {
    WeekOfMonthMonotone(cal.dayOfMonth(a), cal.dayOfMonth(b), cal.firstWeekday(cal.fullYear(a), cal.month(a)));
  }

  /** The daily bucket key: the UTC calendar date of the timestamp. */
  function DayKey(cal: CalendarView, t: int): string {
    cal.utcDate(t)
  }

  predicate IsDigit(c: char) {
    '0' <= c <= '9'
  }

  predicate AllDigits(s: string) {
    forall i | 0 <= i < |s| :: IsDigit(s[i])
  }

  function DigitChar(d: nat): (c: char)
    requires d < 10
    ensures IsDigit(c)
  {
    ('0' as int + d) as char
  }

  function DigitValue(c: char): nat
    requires IsDigit(c)
  {
    c as int - '0' as int
  }

  /** A natural number in decimal, as a template literal renders it. */
  function Decimal(n: nat): (s: string)
    ensures |s| > 0 && AllDigits(s)
  {
    if n < 10 then [DigitChar(n)]
    else Decimal(n / 10) + [DigitChar(n % 10)]
  }

  /** The value of a string of decimal digits. */
  function DecimalValue(s: string): nat
    requires AllDigits(s)
  {
    if |s| == 0 then 0
    else 10 * DecimalValue(s[..|s| - 1]) + DigitValue(s[|s| - 1])
  }

  /** Reading back a rendered number gives the number. */
  lemma {:induction false} DecimalRoundTrip(n: nat)
    ensures DecimalValue(Decimal(n)) == n
  {
    if n >= 10 {
      DecimalRoundTrip(n / 10);
      var s := Decimal(n);
      assert s[..|s| - 1] == Decimal(n / 10);
    }
  }

  /** The monthly bucket key `${year}-${month}-W${week}`. It loses nothing:
      parsing it recovers the three parts. */
  function WeekKey(id: WeekId): (key: string)
    ensures ParseWeekKey(key) == Some(id)
  {
    ParseRenderedKey(id);
    Decimal(id.year) + "-" + Decimal(id.month) + "-W" + Decimal(id.week)
  }

  /** The monthly bucket key of a timestamp. */
  function MonthKey(cal: CalendarView, t: int): string {
    WeekKey(WeekOf(cal, t))
  }

  /** The first position of `c` in `s`, if any. */
  function IndexOf(s: string, c: char): (r: Option<nat>)
    ensures r.Some? ==> r.value < |s| && s[r.value] == c
    ensures r.Some? ==> forall i | 0 <= i < r.value :: s[i] != c
    ensures r.None? ==> forall i | 0 <= i < |s| :: s[i] != c
  {
    if |s| == 0 then None
    else if s[0] == c then Some(0)
    else
      match IndexOf(s[1..], c)
      case None => None
      case Some(i) => Some(i + 1)
  }

  /** Reads a monthly bucket key back into its parts; `None` if it is not of
      the form digits `-` digits `-W` digits. */
  function ParseWeekKey(s: string): Option<WeekId> {
    match IndexOf(s, '-')
    case None => None
    case Some(i) =>
      var yearText, rest := s[..i], s[i + 1..];
      match IndexOf(rest, '-')
      case None => None
      case Some(j) =>
        var monthText, weekText := rest[..j], rest[j + 1..];
        if |yearText| > 0 && AllDigits(yearText) && |monthText| > 0 && AllDigits(monthText)
           && |weekText| > 1 && weekText[0] == 'W' && AllDigits(weekText[1..])
        then Some(WeekId(DecimalValue(yearText), DecimalValue(monthText), DecimalValue(weekText[1..])))
        else None
  }

  /** Splitting `digits + [c] + rest` at the first `c` finds the separator. */
  lemma SeparatorAfterDigits(digits: string, c: char, rest: string)
    requires AllDigits(digits) && !IsDigit(c)
    ensures IndexOf(digits + [c] + rest, c) == Some(|digits|)
    ensures (digits + [c] + rest)[..|digits|] == digits
    ensures (digits + [c] + rest)[|digits| + 1..] == rest
  {
    var s := digits + [c] + rest;
    assert s[|digits|] == c;
    match IndexOf(s, c)
    case None =>
    case Some(k) =>
      if k < |digits| {
        assert s[k] == digits[k];
      }
  }

  /** Parsing the rendered text of a key recovers its parts. */
  lemma ParseRenderedKey(id: WeekId)
    ensures ParseWeekKey(Decimal(id.year) + "-" + Decimal(id.month) + "-W" + Decimal(id.week)) == Some(id)
  {
    var y, m, w := Decimal(id.year), Decimal(id.month), Decimal(id.week);
    var weekText := "W" + w;
    var rest := m + ['-'] + weekText;
    assert y + "-" + m + "-W" + w == y + ['-'] + rest;
    SeparatorAfterDigits(y, '-', rest);
    SeparatorAfterDigits(m, '-', weekText);
    assert weekText[1..] == w;
    DecimalRoundTrip(id.year);
    DecimalRoundTrip(id.month);
    DecimalRoundTrip(id.week);
  }

  /** Distinct weeks get distinct keys, so no two weeks share a bucket. */
  lemma WeekKeyInjective(a: WeekId, b: WeekId)
    requires WeekKey(a) == WeekKey(b)
    ensures a == b
  {
  }
}

=== FILE: change_stream.dfy ===
/** The change-stream handler: each store change record is turned into the
    events the server emits to connected clients. */
module ChangeStream {

  import opened Options
  import opened Readings
  import opened HeartRate
  import opened Queries

  /** A change record as delivered with `fullDocument: 'updateLookup'`. An
      insert always carries its document; an update's looked-up document is
      missing when it was deleted in the meantime; a delete carries only the
      `_id`; any other operation type (drop, rename, ...) carries its name. */
  datatype ChangeRecord =
    | InsertChange(fullDocument: Sample)
    | UpdateChange(lookup: Option<Sample>)
    | DeleteChange(documentKey: string)
    | OtherChange(operationType: string)

  /** The reading fields of an event: the three statistics and `timestamp`. */
  datatype Reading = Reading(bpm: Bpm, timestamp: int)

  /** An event object as it travels to a client: `operation`, and either the
      reading fields or `documentId`. */
  datatype Payload = Payload(operation: string, reading: Option<Reading>, documentId: Option<string>)

  /** One `io.emit(channel, payload)` call. */
  datatype Emission = Emission(channel: string, payload: Payload)

  /** The only channel the server emits on; it broadcasts to every client. */
  const UpdateChannel: string := "heartRateUpdate"

  /** The reading an event carries for a stored sample: `timestamp` is `createdAt`. */
  function ReadingOf(s: Sample): Reading {
    Reading(s.bpm, s.createdAt)
  }

  function ReadingEvent(operation: string, s: Sample): Emission {
    Emission(UpdateChannel, Payload(operation, Some(ReadingOf(s)), None))
  }

  /** The operations the server ever puts in an event. */
  predicate ServerOperation(op: string) {
    op == "insert" || op == "update" || op == "delete" || op == "latest"
  }

  /** The events emitted for one change. `storeAfter` is the store as the
      delete path's follow-up newest-first lookup sees it. */
  function Normalise(change: ChangeRecord, storeAfter: seq<Sample>): (r: seq<Emission>)
    ensures |r| <= 2
    ensures forall i | 0 <= i < |r| :: r[i].channel == UpdateChannel && ServerOperation(r[i].payload.operation)
    // insert: exactly one insert event copying the record's statistics and creation time
    ensures change.InsertChange? ==>
      |r| == 1 && r[0].payload.operation == "insert" && r[0].payload.documentId.None?
      && r[0].payload.reading == Some(Reading(change.fullDocument.bpm, change.fullDocument.createdAt))
    // update: one update event when the looked-up document exists, none otherwise
    ensures change.UpdateChange? ==>
      |r| == (if change.lookup.Some? then 1 else 0)
      && (forall i | 0 <= i < |r| ::
            r[i].payload.operation == "update"
            && r[i].payload.reading == Some(Reading(change.lookup.value.bpm, change.lookup.value.createdAt)))
    // delete: a delete event with the id, then a latest event exactly when records remain
    ensures change.DeleteChange? ==>
      |r| == (if |storeAfter| == 0 then 1 else 2)
      && r[0].payload == Payload("delete", None, Some(change.documentKey))
    ensures change.DeleteChange? && |r| == 2 ==>
      r[1].payload.operation == "latest" && r[1].payload.documentId.None?
      && r[1].payload.reading.Some?
      && (exists s | s in storeAfter :: r[1].payload.reading.value == ReadingOf(s))
      && forall i | 0 <= i < |storeAfter| :: storeAfter[i].createdAt <= r[1].payload.reading.value.timestamp
    // anything else: nothing
    ensures change.OtherChange? ==> r == []
  {
    match change
    case InsertChange(doc) => [ReadingEvent("insert", doc)]
    case UpdateChange(lookup) =>
      if lookup.Some? then [ReadingEvent("update", lookup.value)] else []
    case DeleteChange(id) =>
      var deleted := Emission(UpdateChannel, Payload("delete", None, Some(id)));
      (match Latest(storeAfter)
       case Some(latest) => [deleted, ReadingEvent("latest", latest)]
       case None => [deleted])
    case OtherChange(_) => []
  }

  /** All events for a run of changes, in order; `stores[i]` is the store as
      the handler of `changes[i]` reads it. */
  function NormaliseAll(changes: seq<ChangeRecord>, stores: seq<seq<Sample>>): (r: seq<Emission>)
    requires |stores| == |changes|
    ensures forall i | 0 <= i < |r| :: r[i].channel == UpdateChannel && ServerOperation(r[i].payload.operation)
  {
    if |changes| == 0 then []
    else
      var n := |changes| - 1;
      NormaliseAll(changes[..n], stores[..n]) + Normalise(changes[n], stores[n])
  }

  /** In the emitted stream every `latest` event directly follows a `delete`
      event, so a delete is followed by at most one `latest`. */
  predicate LatestOnlyAfterDelete(r: seq<Emission>) {
    forall i | 0 <= i < |r| && r[i].payload.operation == "latest" ::
      i > 0 && r[i - 1].payload.operation == "delete"
  }

  /** Whatever the changes, the emitted stream satisfies `LatestOnlyAfterDelete`. */
  lemma {:induction false} LatestFollowsDelete(changes: seq<ChangeRecord>, stores: seq<seq<Sample>>)
    requires |stores| == |changes|
    ensures LatestOnlyAfterDelete(NormaliseAll(changes, stores))
  {
    if |changes| > 0 {
      var n := |changes| - 1;
      LatestFollowsDelete(changes[..n], stores[..n]);
      var before := NormaliseAll(changes[..n], stores[..n]);
      var last := Normalise(changes[n], stores[n]);
      var r := before + last;
      assert NormaliseAll(changes, stores) == r;
      forall i | 0 <= i < |r| && r[i].payload.operation == "latest"
        ensures i > 0 && r[i - 1].payload.operation == "delete"
      {
        if i >= |before| {
          var k := i - |before|;
          assert last[k].payload.operation == "latest";
          assert changes[n].DeleteChange? && k == 1;
          assert r[i - 1] == last[0];
        } else {
          assert r[i] == before[i];
          assert before[i].payload.operation == "latest";
          assert i > 0 && before[i - 1].payload.operation == "delete";
          assert r[i - 1] == before[i - 1];
        }
      }
    }
  }

  /** The payloads a listener on `channel` receives from a stream of emissions. */
  function Received(emissions: seq<Emission>, channel: string): (r: seq<Payload>)
    ensures |r| <= |emissions|
  {
    if |emissions| == 0 then []
    else
      var n := |emissions| - 1;
      Received(emissions[..n], channel)
      + (if emissions[n].channel == channel then [emissions[n].payload] else [])
  }

  /** A listener on the per-user channel `heartRateUpdate:<id>` receives
      nothing: the server emits only on the unscoped channel. */
  lemma {:induction false} ScopedChannelReceivesNothing(changes: seq<ChangeRecord>, stores: seq<seq<Sample>>, heartifyId: string)
    requires |stores| == |changes|
    ensures Received(NormaliseAll(changes, stores), UpdateChannel + ":" + heartifyId) == []
  {
    var r := NormaliseAll(changes, stores);
    ReceivedNothingOnOtherChannels(r, UpdateChannel + ":" + heartifyId);
  }

  /** A listener receives nothing from emissions on other channels. */
  lemma {:induction false} ReceivedNothingOnOtherChannels(emissions: seq<Emission>, channel: string)
    requires forall i | 0 <= i < |emissions| :: emissions[i].channel != channel
    ensures Received(emissions, channel) == []
  {
    if |emissions| > 0 {
      ReceivedNothingOnOtherChannels(emissions[..|emissions| - 1], channel);
    }
  }

  /** The unscoped listener receives every emitted payload, in order. */
  lemma {:induction false} UnscopedChannelReceivesAll(emissions: seq<Emission>)
    requires forall i | 0 <= i < |emissions| :: emissions[i].channel == UpdateChannel
    ensures |Received(emissions, UpdateChannel)| == |emissions|
    ensures forall i | 0 <= i < |emissions| :: Received(emissions, UpdateChannel)[i] == emissions[i].payload
  {
    if |emissions| > 0 {
      UnscopedChannelReceivesAll(emissions[..|emissions| - 1]);
    }
  }
}

=== FILE: heart_rate.dfy ===
/** The stored heart-rate record (the `HeartRateMonitor` collection's schema). */
module HeartRate {

  import opened Options
  import opened Readings

  /** One stored sample. `id` is the store-assigned `_id` in its string form;
      `createdAt` is the insertion timestamp in milliseconds, set once by the
      schema's `timestamps` option. The owner references are optional. */
  datatype Sample = Sample(
    id: string,
    bpm: Bpm,
    userId: Option<string>,
    heartifyId: Option<string>,
    createdAt: int)

  /** A numeric schema field as given, or its declared default of 0. */
  function OrDefault(v: Option<int>): (r: int)
    ensures v.None? ==> r == 0
    ensures v.Some? ==> r == v.value
  {
    match v
    case Some(x) => x
    case None => 0
  }

  /** Builds a sample the way the server builds and saves a new record:
      absent BPM fields default to 0, no owner, `createdAt` is the save time. */
  function NewSample(id: string, maxBPM: Option<int>, avgBPM: Option<int>, minBPM: Option<int>, now: int): (s: Sample)
    ensures s.id == id && s.createdAt == now
    ensures s.userId.None? && s.heartifyId.None?
    ensures s.bpm == Bpm(OrDefault(maxBPM), OrDefault(avgBPM), OrDefault(minBPM))
  {
    Sample(id, Bpm(OrDefault(maxBPM), OrDefault(avgBPM), OrDefault(minBPM)), None, None, now)
  }

  /** The reading of a sample. */
  function BpmOf(s: Sample): Bpm {
    s.bpm
  }

  /** The sort key of every store query and client list. */
  function CreatedAt(s: Sample): int {
    s.createdAt
  }

  /** No sample has a `minBPM` of 0, the value the report summaries use as
      "no minimum yet". */
  predicate NoZeroMinimum(ss: seq<Sample>) {
    forall i | 0 <= i < |ss| :: ss[i].bpm.minBPM != 0
  }

  /** Appending a new sample to a store without zero minima keeps that
      property exactly when the sample's `minBPM` is given and non-zero: an
      omitted field takes the schema default 0. */
  lemma NewSampleKeepsNoZeroMinimum(store: seq<Sample>, id: string, maxBPM: Option<int>, avgBPM: Option<int>, minBPM: Option<int>, now: int)
    requires NoZeroMinimum(store)
    ensures NoZeroMinimum(store + [NewSample(id, maxBPM, avgBPM, minBPM, now)])
        <==> minBPM.Some? && minBPM.value != 0
  {
    var s := NewSample(id, maxBPM, avgBPM, minBPM, now);
    var r := store + [s];
    assert r[|store|] == s;
    if minBPM.Some? && minBPM.value != 0 {
      forall i | 0 <= i < |r| ensures r[i].bpm.minBPM != 0 {
        if i < |store| {
          assert r[i] == store[i];
        }
      }
    }
  }
}

=== FILE: options.dfy ===
/** The optional value used wherever the JavaScript source reads a field that may be
    absent (`undefined`/`null`) or a lookup that may find nothing. */
module Options {

  datatype Option<+T> = None | Some(value: T)
}

=== FILE: pipeline.dfy ===
/** End-to-end relations between the server and the analytics page: when a
    live event patched into the page's daily list yields what re-fetching
    `/api/heart-rate/daily` would have shown, and when it does not. */
module Pipeline {

  import opened Options
  import opened Seqs
  import opened Sorting
  import opened Readings
  import opened HeartRate
  import opened Queries
  import opened ChangeStream
  import opened Reports
  import opened Analytics

  /** A fetched daily record as the page holds it: with its `_id`. */
  function EntryOf(s: Sample): Entry {
    Entry(Some(s.id), s.bpm, s.createdAt)
  }

  /** A row without its `_id`: what the chart and the summary figures use. */
  function Unlabel(e: Entry): Entry {
    e.(id := None)
  }

  /** The daily list right after loading `/api/heart-rate/daily`. */
  function Loaded(store: seq<Sample>, midnightToday: int, midnightTomorrow: int): (r: seq<Entry>)
    ensures SortedBy(r, EntryTime)
    ensures forall e :: e in r <==> exists s | s in store :: e == EntryOf(s) && midnightToday <= s.createdAt < midnightTomorrow
  {
    var d := DailyReport(store, midnightToday, midnightTomorrow);
    MapKeepsSorted(d, EntryOf, CreatedAt, EntryTime);
    forall e ensures e in MapSeq(EntryOf, d) <==> exists s | s in d :: e == EntryOf(s) {
      MapMembership(d, e);
    }
    MapSeq(EntryOf, d)
  }

  lemma MapMembership(d: seq<Sample>, e: Entry)
    ensures e in MapSeq(EntryOf, d) <==> exists s | s in d :: e == EntryOf(s)
  {
    var r := MapSeq(EntryOf, d);
    if e in r {
      var k :| 0 <= k < |r| && r[k] == e;
      assert d[k] in d;
    }
    if exists s | s in d :: e == EntryOf(s) {
      var s :| s in d && e == EntryOf(s);
      var k :| 0 <= k < |d| && d[k] == s;
      assert r[k] == e;
    }
  }

  /** A reading at a time no row has is inserted into a sorted list. */
  lemma PatchIsInsert(m: seq<Entry>, s: Sample)
    requires SortedBy(m, EntryTime)
    requires forall j | 0 <= j < |m| :: m[j].createdAt != s.createdAt
    ensures MergeReading(m, ReadingOf(s)) == InsertByKey(NewEntry(ReadingOf(s)), m, EntryTime)
  {
    AppendThenSortIsInsert(m, NewEntry(ReadingOf(s)), EntryTime);
  }

  /** Re-fetching after a sample inside today's window was appended gives the
      old list with that sample's row inserted. */
  lemma RefetchIsInsert(store: seq<Sample>, s: Sample, midnightToday: int, midnightTomorrow: int)
    requires midnightToday <= s.createdAt < midnightTomorrow
    ensures Loaded(store + [s], midnightToday, midnightTomorrow)
      == InsertByKey(EntryOf(s), Loaded(store, midnightToday, midnightTomorrow), EntryTime)
  {
    var w := DailyWindow(midnightToday, midnightTomorrow);
    QueryAfterAppend(store, w, s);
    InsertCommutesWithMap(s, Query(store, w), EntryOf, CreatedAt, EntryTime);
  }

  /** Two rows that differ at most in their id are inserted at the same place. */
  lemma InsertUpToId(x: Entry, y: Entry, m: seq<Entry>)
    requires Unlabel(x) == Unlabel(y)
    ensures MapSeq(Unlabel, InsertByKey(x, m, EntryTime)) == MapSeq(Unlabel, InsertByKey(y, m, EntryTime))
  {
    InsertCommutesWithMap(x, m, Unlabel, EntryTime, EntryTime);
    InsertCommutesWithMap(y, m, Unlabel, EntryTime, EntryTime);
  }

  /** An accepted `/insertData` call saved after every stored record, whose
      insert event reaches a page that loaded today's list before the call:
      the patched list equals the re-fetched one except that the new row has
      no `_id`. `midnightToday` and `midnightTomorrow` bound the server's
      daily window; `pageMidnight` is the page's own local midnight on the
      day the event arrives, which must not lie after the new sample. */
  lemma LiveInsertMatchesRefetch(
    store: seq<Sample>, body: InsertBody, id: string, now: int,
    midnightToday: int, midnightTomorrow: int, pageMidnight: int,
    st: ClientState, clientNow: int, fetch: FetchOutcome)
    requires InsertData(store, body, id, now).status == 201
    requires midnightToday <= now < midnightTomorrow
    requires pageMidnight <= now
    requires forall i | 0 <= i < |store| :: store[i].createdAt < now
    requires st.daily == Loaded(store, midnightToday, midnightTomorrow)
    ensures var after := InsertData(store, body, id, now).store;
      var events := Normalise(InsertChange(after[|store|]), after);
      MapSeq(Unlabel, HandleEvent(st, events[0].payload, pageMidnight, clientNow, fetch).daily)
        == MapSeq(Unlabel, Loaded(after, midnightToday, midnightTomorrow))
  {
    var after := InsertData(store, body, id, now).store;
    var s := after[|store|];
    assert after == store + [s];
    var m := st.daily;
    forall j | 0 <= j < |m| ensures m[j].createdAt != s.createdAt {
      assert m[j] in m;
    }
    PatchIsInsert(m, s);
    RefetchIsInsert(store, s, midnightToday, midnightTomorrow);
    InsertUpToId(NewEntry(ReadingOf(s)), EntryOf(s), m);
    assert Normalise(InsertChange(s), after)[0].payload == Payload("insert", Some(ReadingOf(s)), None);
    ReadingEventDaily(st, "insert", ReadingOf(s), pageMidnight, clientNow, fetch);
  }

  function NotId(id: string): Sample -> bool {
    (s: Sample) => s.id != id
  }

  /** The store after the document with `_id` `id` is deleted. */
  function DeleteSample(store: seq<Sample>, id: string): (r: seq<Sample>)
    ensures forall s :: s in r <==> s in store && s.id != id
  {
    var r := Filter(store, NotId(id));
    assert forall s :: s in r <==> s in store && s.id != id by {
      forall s ensures s in r <==> s in store && s.id != id {
        FilterMultiplicity(store, NotId(id), s);
      }
    }
    r
  }

  /** The delete event a deletion emits, handled by a page that loaded
      today's list before it, leaves exactly the re-fetched list, whatever
      the page's own midnight `pageMidnight`: the delete path never reads it. */
  lemma LiveDeleteMatchesRefetch(
    store: seq<Sample>, id: string, midnightToday: int, midnightTomorrow: int, pageMidnight: int,
    st: ClientState, clientNow: int, fetch: FetchOutcome)
    requires id != ""
    requires st.daily == Loaded(store, midnightToday, midnightTomorrow)
    ensures var after := DeleteSample(store, id);
      var events := Normalise(DeleteChange(id), after);
      HandleEvent(st, events[0].payload, pageMidnight, clientNow, fetch).daily
        == Loaded(after, midnightToday, midnightTomorrow)
  {
    var w := DailyWindow(midnightToday, midnightTomorrow);
    var d := Query(store, w);
    assert Query(DeleteSample(store, id), w) == Filter(d, NotId(id)) by {
      FilterFilterCommute(store, NotId(id), InWindow(w));
      SortCommutesWithFilter(Filter(store, InWindow(w)), CreatedAt, NotId(id));
    }
    assert MapSeq(EntryOf, Filter(d, NotId(id))) == RemoveById(MapSeq(EntryOf, d), id) by {
      FilterMapCommute(d, EntryOf, NotId(id), KeepsId(id));
    }
    assert Normalise(DeleteChange(id), DeleteSample(store, id))[0].payload == Payload("delete", None, Some(id));
    DeleteEventDaily(st, id, pageMidnight, clientNow, fetch);
  }

  /** What an identified delete event does to the daily list. */
  lemma DeleteEventDaily(st: ClientState, id: string, midnightToday: int, now: int, fetch: FetchOutcome)
    requires id != ""
    ensures HandleEvent(st, Payload("delete", None, Some(id)), midnightToday, now, fetch).daily == RemoveById(st.daily, id)
  {
  }

  /** No two different stored records share a creation time. */
  predicate DistinctTimes(store: seq<Sample>) {
    forall a, b | a in store && b in store && a.createdAt == b.createdAt :: a == b
  }

  /** In a loaded list of distinct-time samples, the first row at a sample's
      time is that sample's row. */
  lemma FoundRowIsTheSample(store: seq<Sample>, midnightToday: int, midnightTomorrow: int, s: Sample)
    requires DistinctTimes(store)
    requires s in store && midnightToday <= s.createdAt < midnightTomorrow
    ensures var daily := Loaded(store, midnightToday, midnightTomorrow);
      FindTimestamp(daily, s.createdAt).Some?
      && daily[FindTimestamp(daily, s.createdAt).value] == EntryOf(s)
  {
    var daily := Loaded(store, midnightToday, midnightTomorrow);
    assert EntryOf(s) in daily;
    var k :| 0 <= k < |daily| && daily[k] == EntryOf(s);
    assert daily[k].createdAt == s.createdAt;
    var i := FindTimestamp(daily, s.createdAt).value;
    assert daily[i] in daily;
    var other :| other in store && daily[i] == EntryOf(other) && midnightToday <= other.createdAt < midnightTomorrow;
    assert other.createdAt == s.createdAt;
  }

  /** The `latest` event that follows a delete does not change a daily list
      that matches the store, provided creation times are distinct, none lies
      after the server's today, and the page's midnight is not earlier than
      the server's. */
  lemma LatestEventKeepsDaily(
    store: seq<Sample>, id: string, midnightToday: int, midnightTomorrow: int, pageMidnight: int,
    st: ClientState, clientNow: int, fetch: FetchOutcome)
    requires |store| > 0
    requires midnightToday <= pageMidnight
    requires DistinctTimes(store)
    requires forall i | 0 <= i < |store| :: store[i].createdAt < midnightTomorrow
    requires st.daily == Loaded(store, midnightToday, midnightTomorrow)
    ensures var events := Normalise(DeleteChange(id), store);
      |events| == 2
      && HandleEvent(st, events[1].payload, pageMidnight, clientNow, fetch).daily == st.daily
  {
    var latest := Latest(store).value;
    var reading := ReadingOf(latest);
    assert Normalise(DeleteChange(id), store)[1].payload == Payload("latest", Some(reading), None);
    ReadingEventDaily(st, "latest", reading, pageMidnight, clientNow, fetch);
    if latest.createdAt >= pageMidnight {
      assert MergeReading(st.daily, reading) == st.daily by {
        StoredReadingKeepsLoaded(store, midnightToday, midnightTomorrow, latest);
      }
    }
  }

  /** Merging the reading of a stored sample from today into the loaded
      daily list changes nothing: the sample's own row already shows it. */
  lemma StoredReadingKeepsLoaded(store: seq<Sample>, midnightToday: int, midnightTomorrow: int, s: Sample)
    requires DistinctTimes(store)
    requires forall i | 0 <= i < |store| :: store[i].createdAt < midnightTomorrow
    requires s in store && midnightToday <= s.createdAt
    ensures var daily := Loaded(store, midnightToday, midnightTomorrow);
      MergeReading(daily, ReadingOf(s)) == daily
  {
    var daily := Loaded(store, midnightToday, midnightTomorrow);
    assert s.createdAt < midnightTomorrow by {
      var j :| 0 <= j < |store| && store[j] == s;
    }
    FoundRowIsTheSample(store, midnightToday, midnightTomorrow, s);
    var i := FindTimestamp(daily, s.createdAt).value;
    assert daily[i := daily[i].(bpm := s.bpm)] == daily;
  }

  /** What a reading event does to the daily list. */
  lemma ReadingEventDaily(st: ClientState, op: string, reading: Reading, midnightToday: int, now: int, fetch: FetchOutcome)
    requires IsReadingOperation(op)
    ensures HandleEvent(st, Payload(op, Some(reading), None), midnightToday, now, fetch).daily
      == if reading.timestamp >= midnightToday then MergeReading(st.daily, reading) else st.daily
  {
  }

  /** Both events of a deletion that leaves records behind, handled in turn,
      leave the re-fetched daily list, when the page's midnight is not
      earlier than the server's. */
  lemma DeleteThenLatestMatchesRefetch(
    store: seq<Sample>, id: string, midnightToday: int, midnightTomorrow: int, pageMidnight: int,
    st: ClientState, now1: int, fetch1: FetchOutcome, now2: int, fetch2: FetchOutcome)
    requires id != ""
    requires midnightToday <= pageMidnight
    requires DistinctTimes(store)
    requires forall i | 0 <= i < |store| :: store[i].createdAt < midnightTomorrow
    requires exists s | s in store :: s.id != id
    requires st.daily == Loaded(store, midnightToday, midnightTomorrow)
    ensures var after := DeleteSample(store, id);
      var events := Normalise(DeleteChange(id), after);
      var st1 := HandleEvent(st, events[0].payload, pageMidnight, now1, fetch1);
      |events| == 2
      && HandleEvent(st1, events[1].payload, pageMidnight, now2, fetch2).daily
         == Loaded(after, midnightToday, midnightTomorrow)
  {
    var after := DeleteSample(store, id);
    LiveDeleteMatchesRefetch(store, id, midnightToday, midnightTomorrow, pageMidnight, st, now1, fetch1);
    var st1 := HandleEvent(st, Normalise(DeleteChange(id), after)[0].payload, pageMidnight, now1, fetch1);
    var s :| s in store && s.id != id;
    assert s in after;
    forall i | 0 <= i < |after| ensures after[i].createdAt < midnightTomorrow {
      assert after[i] in after;
    }
    LatestEventKeepsDaily(after, id, midnightToday, midnightTomorrow, pageMidnight, st1, now2, fetch2);
  }

  /** Without the bound on creation times the relation fails: with `a` today
      and `b` at or after midnight tomorrow, deleting `a` empties the
      re-fetched daily list, but the follow-up `latest` event for `b` adds a
      row. */
  lemma FutureSampleBreaksDeleteThenLatest(
    a: Sample, b: Sample, midnightToday: int, midnightTomorrow: int,
    st: ClientState, now1: int, fetch1: FetchOutcome, now2: int, fetch2: FetchOutcome)
    requires a.id != "" && a.id != b.id
    requires midnightToday <= a.createdAt < midnightTomorrow <= b.createdAt
    requires st.daily == Loaded([a, b], midnightToday, midnightTomorrow)
    ensures var after := DeleteSample([a, b], a.id);
      var events := Normalise(DeleteChange(a.id), after);
      var st1 := HandleEvent(st, events[0].payload, midnightToday, now1, fetch1);
      && |events| == 2
      && Loaded(after, midnightToday, midnightTomorrow) == []
      && |HandleEvent(st1, events[1].payload, midnightToday, now2, fetch2).daily| == 1
  {
    var store := [a, b];
    var after := DeleteSample(store, a.id);
    assert Latest(after) == Some(b) by {
      OnlyOtherIsLatest(a, b);
    }
    var events := Normalise(DeleteChange(a.id), after);
    assert events == [Emission(UpdateChannel, Payload("delete", None, Some(a.id))), ReadingEvent("latest", b)];
    assert Loaded(after, midnightToday, midnightTomorrow) == [] by {
      assert forall s | s in after :: s == b;
      NothingLoaded(after, midnightToday, midnightTomorrow);
    }
    var st1 := HandleEvent(st, events[0].payload, midnightToday, now1, fetch1);
    assert st1.daily == [] by {
      DeleteEventDaily(st, a.id, midnightToday, now1, fetch1);
      OnlyLoadedRowRemoved(a, b, midnightToday, midnightTomorrow, st.daily);
    }
    assert HandleEvent(st1, events[1].payload, midnightToday, now2, fetch2).daily == MergeReading([], ReadingOf(b)) by {
      ReadingEventDaily(st1, "latest", ReadingOf(b), midnightToday, now2, fetch2);
    }
  }

  /** Deleting one of two samples leaves the other as the latest. */
  lemma OnlyOtherIsLatest(a: Sample, b: Sample)
    requires a.id != b.id
    ensures Latest(DeleteSample([a, b], a.id)) == Some(b)
  {
    var after := DeleteSample([a, b], a.id);
    assert b in after;
    assert Latest(after).value in after;
  }

  /** A store with no sample in today's window loads an empty daily list. */
  lemma NothingLoaded(store: seq<Sample>, midnightToday: int, midnightTomorrow: int)
    requires forall s | s in store :: !(midnightToday <= s.createdAt < midnightTomorrow)
    ensures Loaded(store, midnightToday, midnightTomorrow) == []
  {
    var r := Loaded(store, midnightToday, midnightTomorrow);
    assert multiset(r) == multiset{};
  }

  /** With only `a` in today's window, deleting `a` empties the loaded list. */
  lemma OnlyLoadedRowRemoved(a: Sample, b: Sample, midnightToday: int, midnightTomorrow: int, daily: seq<Entry>)
    requires !(midnightToday <= b.createdAt < midnightTomorrow)
    requires daily == Loaded([a, b], midnightToday, midnightTomorrow)
    ensures RemoveById(daily, a.id) == []
  {
    var r := RemoveById(daily, a.id);
    assert forall e | e in r :: e in daily;
    assert multiset(r) == multiset{};
  }

  /** When the page's midnight lies after a new sample that the server's
      window holds, the insert event leaves the patched list unchanged while
      the re-fetched list gains the sample's row. */
  lemma LatePageMidnightDropsInsert(
    store: seq<Sample>, body: InsertBody, id: string, now: int,
    midnightToday: int, midnightTomorrow: int, pageMidnight: int,
    st: ClientState, clientNow: int, fetch: FetchOutcome)
    requires InsertData(store, body, id, now).status == 201
    requires midnightToday <= now < midnightTomorrow
    requires now < pageMidnight
    requires st.daily == Loaded(store, midnightToday, midnightTomorrow)
    ensures var after := InsertData(store, body, id, now).store;
      var events := Normalise(InsertChange(after[|store|]), after);
      && HandleEvent(st, events[0].payload, pageMidnight, clientNow, fetch).daily == st.daily
      && |Loaded(after, midnightToday, midnightTomorrow)| == |st.daily| + 1
  {
    var after := InsertData(store, body, id, now).store;
    var s := after[|store|];
    assert after == store + [s];
    RefetchIsInsert(store, s, midnightToday, midnightTomorrow);
    assert Normalise(InsertChange(s), after)[0].payload == Payload("insert", Some(ReadingOf(s)), None);
    ReadingEventDaily(st, "insert", ReadingOf(s), pageMidnight, clientNow, fetch);
  }

  /** When the page's midnight is earlier than the server's, the relation of
      `DeleteThenLatestMatchesRefetch` fails: with `a` in the server's day and
      `b` between the two midnights, deleting `a` empties the re-fetched list,
      but the follow-up `latest` event for `b` passes the page's test and adds
      a row. */
  lemma EarlyPageMidnightBreaksDeleteThenLatest(
    a: Sample, b: Sample, midnightToday: int, midnightTomorrow: int, pageMidnight: int,
    st: ClientState, now1: int, fetch1: FetchOutcome, now2: int, fetch2: FetchOutcome)
    requires a.id != "" && a.id != b.id
    requires pageMidnight <= b.createdAt < midnightToday <= a.createdAt < midnightTomorrow
    requires st.daily == Loaded([a, b], midnightToday, midnightTomorrow)
    ensures var after := DeleteSample([a, b], a.id);
      var events := Normalise(DeleteChange(a.id), after);
      var st1 := HandleEvent(st, events[0].payload, pageMidnight, now1, fetch1);
      && |events| == 2
      && Loaded(after, midnightToday, midnightTomorrow) == []
      && |HandleEvent(st1, events[1].payload, pageMidnight, now2, fetch2).daily| == 1
  {
    var store := [a, b];
    var after := DeleteSample(store, a.id);
    assert Latest(after) == Some(b) by {
      OnlyOtherIsLatest(a, b);
    }
    var events := Normalise(DeleteChange(a.id), after);
    assert events == [Emission(UpdateChannel, Payload("delete", None, Some(a.id))), ReadingEvent("latest", b)];
    assert Loaded(after, midnightToday, midnightTomorrow) == [] by {
      assert forall s | s in after :: s == b;
      NothingLoaded(after, midnightToday, midnightTomorrow);
    }
    var st1 := HandleEvent(st, events[0].payload, pageMidnight, now1, fetch1);
    assert st1.daily == [] by {
      DeleteEventDaily(st, a.id, pageMidnight, now1, fetch1);
      OnlyLoadedRowRemoved(a, b, midnightToday, midnightTomorrow, st.daily);
    }
    assert HandleEvent(st1, events[1].payload, pageMidnight, now2, fetch2).daily == MergeReading([], ReadingOf(b)) by {
      ReadingEventDaily(st1, "latest", ReadingOf(b), pageMidnight, now2, fetch2);
    }
  }
}

=== FILE: queries.dfy ===
/** The server's reads of and writes to the sample store: the time-window
    queries behind the daily, weekly and monthly endpoints, the latest-record
    lookup (`/maxHR` and the change stream's delete path) and `/insertData`. */
module Queries {

  import opened Options
  import opened Seqs
  import opened Sorting
  import opened Readings
  import opened HeartRate

  /** A `createdAt` range: `from` is inclusive (`$gte`); `to` is exclusive
      (`$lt`) for the daily query and inclusive (`$lte`) for the others. */
  datatype Window = Window(from: int, to: int, toInclusive: bool) {
    predicate Contains(t: int) {
      from <= t && if toInclusive then t <= to else t < to
    }
  }

  /** Daily window: local midnight today up to, not including, local midnight tomorrow. */
  function DailyWindow(midnightToday: int, midnightTomorrow: int): Window {
    Window(midnightToday, midnightTomorrow, false)
  }

  /** Weekly and monthly windows: from local midnight of the start day through
      23:59:59.999 today, both ends included. */
  function RecentWindow(start: int, endOfToday: int): Window {
    Window(start, endOfToday, true)
  }

  function InWindow(w: Window): Sample -> bool {
    (s: Sample) => w.Contains(s.createdAt)
  }

  /** The store query behind each report: the samples inside the window,
      ascending by `createdAt`. */
  function Query(store: seq<Sample>, w: Window): (r: seq<Sample>)
    ensures SortedBy(r, CreatedAt)
    ensures |r| <= |store|
  {
    SortByKey(Filter(store, InWindow(w)), CreatedAt)
  }

  /** A record occurs in the query result exactly as often as in the store
      when its `createdAt` is inside the window, and not at all otherwise. */
  lemma QueryContents(store: seq<Sample>, w: Window, s: Sample)
    ensures multiset(Query(store, w))[s] == if w.Contains(s.createdAt) then multiset(store)[s] else 0
    ensures s in Query(store, w) <==> s in store && w.Contains(s.createdAt)
  {
    FilterMultiplicity(store, InWindow(w), s);
    assert multiset(Query(store, w)) == multiset(Filter(store, InWindow(w)));
  }

  /** A record added inside the window lands in the query result by a single
      insertion into the previous result. */
  lemma QueryAfterAppend(store: seq<Sample>, w: Window, s: Sample)
    requires w.Contains(s.createdAt)
    ensures Query(store + [s], w) == InsertByKey(s, Query(store, w), CreatedAt)
  {
    FilterSnoc(store, s, InWindow(w));
    var f := Filter(store, InWindow(w));
    assert (f + [s])[..|f|] == f;
  }

  /** The newest record, as a newest-first single-record lookup finds it. Among records with
      equal `createdAt` the store's order decides; the model takes the first. */
  function Latest(store: seq<Sample>): (r: Option<Sample>)
    ensures r.None? <==> |store| == 0
    ensures r.Some? ==> r.value in store
    ensures r.Some? ==> forall i | 0 <= i < |store| :: store[i].createdAt <= r.value.createdAt
  {
    if |store| == 0 then None
    else
      match Latest(store[1..])
      case None => Some(store[0])
      case Some(later) =>
        if store[0].createdAt >= later.createdAt then Some(store[0]) else Some(later)
  }

  /** `/maxHR`: the newest record, as a list of at most one. */
  function MaxHR(store: seq<Sample>): (r: seq<Sample>)
    ensures |r| <= 1
    ensures |r| == 0 <==> |store| == 0
    ensures forall k | 0 <= k < |r| :: r[k] in store
    ensures forall k, i | 0 <= k < |r| && 0 <= i < |store| :: store[i].createdAt <= r[k].createdAt
  {
    match Latest(store)
    case None => []
    case Some(s) => [s]
  }

  /** The `/insertData` request body fields; `None` is an absent field. */
  datatype InsertBody = InsertBody(maxbpm: Option<int>, av6: Option<int>, minbpm: Option<int>)

  /** JavaScript truthiness of a numeric body field: present and not zero. */
  predicate Truthy(v: Option<int>) {
    v.Some? && v.value != 0
  }

  /** The HTTP status of an `/insertData` call and the store afterwards. */
  datatype InsertOutcome = InsertOutcome(status: int, store: seq<Sample>)

  /** `/insertData`: when all three fields are truthy a record is saved with the
      store-assigned `id` and the save time `now`, answering 201; otherwise 400
      and nothing is saved. */
  function InsertData(store: seq<Sample>, body: InsertBody, id: string, now: int): (r: InsertOutcome)
    ensures r.status == 201 || r.status == 400
    ensures r.status == 201 <==> Truthy(body.maxbpm) && Truthy(body.av6) && Truthy(body.minbpm)
    ensures r.status == 400 ==> r.store == store
    ensures r.status == 201 ==> |r.store| == |store| + 1 && r.store[..|store|] == store
    ensures r.status == 201 ==> var s := r.store[|store|];
      s.id == id && s.createdAt == now && s.userId.None? && s.heartifyId.None?
      && s.bpm == Bpm(body.maxbpm.value, body.av6.value, body.minbpm.value)
      && s.bpm.maxBPM != 0 && s.bpm.avgBPM != 0 && s.bpm.minBPM != 0
  {
    if Truthy(body.maxbpm) && Truthy(body.av6) && Truthy(body.minbpm) then
      InsertOutcome(201, store + [NewSample(id, body.maxbpm, body.av6, body.minbpm, now)])
    else
      InsertOutcome(400, store)
  }

  /** A record saved later than everything already stored becomes the latest. */
  lemma InsertedIsLatest(store: seq<Sample>, body: InsertBody, id: string, now: int)
    requires InsertData(store, body, id, now).status == 201
    requires forall i | 0 <= i < |store| :: store[i].createdAt < now
    ensures Latest(InsertData(store, body, id, now).store)
         == Some(NewSample(id, body.maxbpm, body.av6, body.minbpm, now))
  {
    var s := NewSample(id, body.maxbpm, body.av6, body.minbpm, now);
    LatestOfStrictlyNewest(store, s);
  }

  lemma {:induction false} LatestOfStrictlyNewest(store: seq<Sample>, s: Sample)
    requires forall i | 0 <= i < |store| :: store[i].createdAt < s.createdAt
    ensures Latest(store + [s]) == Some(s)
  {
    if |store| > 0 {
      LatestOfStrictlyNewest(store[1..], s);
      assert (store + [s])[1..] == store[1..] + [s];
    }
  }

  /** `/insertData` never stores a zero minimum, so a store written only
      through it has none. */
  lemma InsertDataKeepsNoZeroMinimum(store: seq<Sample>, body: InsertBody, id: string, now: int)
    requires NoZeroMinimum(store)
    ensures NoZeroMinimum(InsertData(store, body, id, now).store)
  {
    var r := InsertData(store, body, id, now).store;
    if InsertData(store, body, id, now).status == 201 {
      forall i | 0 <= i < |r| ensures r[i].bpm.minBPM != 0 {
        if i < |store| {
          assert r[i] == r[..|store|][i];
        }
      }
    }
  }

  /** A window query of such a store has no zero minimum either. */
  lemma QueryKeepsNoZeroMinimum(store: seq<Sample>, w: Window)
    requires NoZeroMinimum(store)
    ensures NoZeroMinimum(Query(store, w))
  {
    var q := Query(store, w);
    forall i | 0 <= i < |q| ensures q[i].bpm.minBPM != 0 {
      QueryContents(store, w, q[i]);
      var j :| 0 <= j < |store| && store[j] == q[i];
    }
  }
}

=== FILE: readings.dfy ===
/** The heart-rate triple carried by every stored record, live event, bucket
    and chart row, and the reductions both the server and the client apply to
    lists of them. */
module Readings {

  /** Maximum, average and minimum beats per minute of one reading. */
  datatype Bpm = Bpm(maxBPM: int, avgBPM: int, minBPM: int)

  /** Selects one of the three statistics. */
  datatype Field = MaxField | AvgField | MinField

  function Get(b: Bpm, f: Field): int {
    match f
    case MaxField => b.maxBPM
    case AvgField => b.avgBPM
    case MinField => b.minBPM
  }

  /** `Math.max(a, b)` on integers. */
  function Max(a: int, b: int): int {
    if a >= b then a else b
  }

  /** `Math.min(a, b)` on integers. */
  function Min(a: int, b: int): int {
    if a <= b then a else b
  }

  /** Sum of one statistic, accumulated left to right from 0 as the client's `reduce` does. */
  function Sum(rows: seq<Bpm>, f: Field): int {
    if |rows| == 0 then 0
    else Sum(rows[..|rows| - 1], f) + Get(rows[|rows| - 1], f)
  }

  /** `Math.round(sum / count)` computed exactly: the nearest integer to the
      mean, with halves rounded up. */
  function RoundedMean(sum: int, count: nat): (r: int)
    requires count > 0
    ensures 2 * count * r <= 2 * sum + count < 2 * count * (r + 1)
  {
    var q := (2 * sum + count) / (2 * count);
    DivBounds(2 * sum + count, 2 * count);
    q
  }

  /** Floor division brackets its dividend. */
  lemma DivBounds(a: int, b: int)
    requires b > 0
    ensures b * (a / b) <= a < b * (a / b + 1)
  {
    assert a == b * (a / b) + a % b;
  }

  /** `Math.max(...rows.map(f))` for a non-empty list. */
  function Highest(rows: seq<Bpm>, f: Field): (r: int)
    requires |rows| > 0
    ensures forall i | 0 <= i < |rows| :: Get(rows[i], f) <= r
    ensures exists i | 0 <= i < |rows| :: Get(rows[i], f) == r
  {
    var n := |rows| - 1;
    if n == 0 then Get(rows[0], f)
    else
      var rest := Highest(rows[..n], f);
      var k :| 0 <= k < n && Get(rows[..n][k], f) == rest;
      assert rows[..n][k] == rows[k];
      Max(rest, Get(rows[n], f))
  }

  /** `Math.min(...rows.map(f))` for a non-empty list. */
  function Lowest(rows: seq<Bpm>, f: Field): (r: int)
    requires |rows| > 0
    ensures forall i | 0 <= i < |rows| :: r <= Get(rows[i], f)
    ensures exists i | 0 <= i < |rows| :: Get(rows[i], f) == r
  {
    var n := |rows| - 1;
    if n == 0 then Get(rows[0], f)
    else
      var rest := Lowest(rows[..n], f);
      var k :| 0 <= k < n && Get(rows[..n][k], f) == rest;
      assert rows[..n][k] == rows[k];
      Min(rest, Get(rows[n], f))
  }

  /** If every row's statistic lies in `[lo, hi]`, so does their sum scaled by the count. */
  lemma {:induction false} SumBounds(rows: seq<Bpm>, f: Field, lo: int, hi: int)
    requires forall i | 0 <= i < |rows| :: lo <= Get(rows[i], f) <= hi
    ensures lo * |rows| <= Sum(rows, f) <= hi * |rows|
  {
    if |rows| > 0 {
      var n := |rows| - 1;
      SumBounds(rows[..n], f, lo, hi);
      assert lo * (n + 1) == lo * n + lo;
      assert hi * (n + 1) == hi * n + hi;
    }
  }

  /** A sum dominated row by row by another sum is no larger. */
  lemma {:induction false} SumMonotone(rows: seq<Bpm>, f: Field, g: Field)
    requires forall i | 0 <= i < |rows| :: Get(rows[i], f) <= Get(rows[i], g)
    ensures Sum(rows, f) <= Sum(rows, g)
  {
    if |rows| > 0 {
      SumMonotone(rows[..|rows| - 1], f, g);
    }
  }

  /** Rounding the mean keeps it within any integer bounds of the values. */
  lemma RoundedMeanWithin(sum: int, count: nat, lo: int, hi: int)
    requires count > 0
    requires lo * count <= sum <= hi * count
    ensures lo <= RoundedMean(sum, count) <= hi
  {
    var r := RoundedMean(sum, count);
    if r > hi {
      MulMonotone(2 * count, hi + 1, r);
    }
    if r < lo {
      MulMonotone(2 * count, r + 1, lo);
    }
  }

  /** Rounding the mean is monotone in the sum. */
  lemma RoundedMeanMonotone(a: int, b: int, count: nat)
    requires count > 0
    requires a <= b
    ensures RoundedMean(a, count) <= RoundedMean(b, count)
  {
    var ra, rb := RoundedMean(a, count), RoundedMean(b, count);
    if ra > rb {
      MulMonotone(2 * count, rb + 1, ra);
    }
  }

  /** The mean of one value is that value. */
  lemma RoundedMeanOfOne(x: int)
    ensures RoundedMean(x, 1) == x
  {
    var r := RoundedMean(x, 1);
    assert 2 * r <= 2 * x + 1 < 2 * r + 2;
  }

  lemma MulMonotone(c: int, a: int, b: int)
    requires c > 0 && a <= b
    ensures c * a <= c * b
  {
  }
}

=== FILE: reports.dfy ===
/** The three read endpoints behind the analytics page: the daily list and
    the weekly (per UTC day) and monthly (per week of month) bucket reports. */
module Reports {

  import opened Seqs
  import opened Sorting
  import opened Readings
  import opened HeartRate
  import opened Calendar
  import opened Queries
  import opened Aggregation

  /** Weekly report key: the UTC date of `createdAt`. */
  function DayKeyOf(cal: CalendarView): Sample -> string {
    (s: Sample) => DayKey(cal, s.createdAt)
  }

  /** Monthly report key: `${year}-${month + 1}-W${week}` of `createdAt`. */
  function MonthKeyOf(cal: CalendarView): Sample -> string {
    (s: Sample) => MonthKey(cal, s.createdAt)
  }

  /** `/api/heart-rate/daily`: today's records, oldest first. */
  function DailyReport(store: seq<Sample>, midnightToday: int, midnightTomorrow: int): (r: seq<Sample>)
    ensures SortedBy(r, CreatedAt)
    ensures forall s :: s in r <==> s in store && midnightToday <= s.createdAt < midnightTomorrow
  {
    var r := Query(store, DailyWindow(midnightToday, midnightTomorrow));
    assert forall s :: s in r <==> s in store && midnightToday <= s.createdAt < midnightTomorrow by {
      forall s ensures s in r <==> s in store && midnightToday <= s.createdAt < midnightTomorrow {
        QueryContents(store, DailyWindow(midnightToday, midnightTomorrow), s);
      }
    }
    r
  }

  /** `/api/heart-rate/weekly`: records from local midnight `start` through
      `endOfToday` grouped by UTC date, one bucket per date that has a record. */
  function WeeklyReport(store: seq<Sample>, start: int, endOfToday: int, cal: CalendarView): (r: seq<Bucket>)
    ensures Distinct(BucketKeys(r))
    ensures forall k :: k in BucketKeys(r) <==>
      exists s | s in store :: start <= s.createdAt <= endOfToday && DayKey(cal, s.createdAt) == k
  {
    var w := RecentWindow(start, endOfToday);
    ReportKeys(store, w, DayKeyOf(cal), "");
    forall k ensures k in BucketKeys(Aggregate(Query(store, w), DayKeyOf(cal))) <==>
        exists s | s in store :: start <= s.createdAt <= endOfToday && DayKey(cal, s.createdAt) == k {
      WeeklyKey(store, start, endOfToday, cal, k);
    }
    Aggregate(Query(store, w), DayKeyOf(cal))
  }

  lemma WeeklyKey(store: seq<Sample>, start: int, endOfToday: int, cal: CalendarView, k: string)
    ensures k in BucketKeys(Aggregate(Query(store, RecentWindow(start, endOfToday)), DayKeyOf(cal))) <==>
      exists s | s in store :: start <= s.createdAt <= endOfToday && DayKey(cal, s.createdAt) == k
  {
    var w := RecentWindow(start, endOfToday);
    ReportKeys(store, w, DayKeyOf(cal), k);
    if exists s | s in store :: w.Contains(s.createdAt) && DayKeyOf(cal)(s) == k {
      var s :| s in store && w.Contains(s.createdAt) && DayKeyOf(cal)(s) == k;
      assert start <= s.createdAt <= endOfToday && DayKey(cal, s.createdAt) == k;
    }
    if exists s | s in store :: start <= s.createdAt <= endOfToday && DayKey(cal, s.createdAt) == k {
      var s :| s in store && start <= s.createdAt <= endOfToday && DayKey(cal, s.createdAt) == k;
      assert w.Contains(s.createdAt) && DayKeyOf(cal)(s) == k;
    }
  }

  /** `/api/heart-rate/monthly`: records from local midnight `start` through
      `endOfToday` grouped by week of month, one bucket per week that has a record. */
  function MonthlyReport(store: seq<Sample>, start: int, endOfToday: int, cal: CalendarView): (r: seq<Bucket>)
    ensures Distinct(BucketKeys(r))
    ensures forall k :: k in BucketKeys(r) <==>
      exists s | s in store :: start <= s.createdAt <= endOfToday && MonthKey(cal, s.createdAt) == k
  {
    var w := RecentWindow(start, endOfToday);
    ReportKeys(store, w, MonthKeyOf(cal), "");
    forall k ensures k in BucketKeys(Aggregate(Query(store, w), MonthKeyOf(cal))) <==>
        exists s | s in store :: start <= s.createdAt <= endOfToday && MonthKey(cal, s.createdAt) == k {
      MonthlyKey(store, start, endOfToday, cal, k);
    }
    Aggregate(Query(store, w), MonthKeyOf(cal))
  }

  lemma MonthlyKey(store: seq<Sample>, start: int, endOfToday: int, cal: CalendarView, k: string)
    ensures k in BucketKeys(Aggregate(Query(store, RecentWindow(start, endOfToday)), MonthKeyOf(cal))) <==>
      exists s | s in store :: start <= s.createdAt <= endOfToday && MonthKey(cal, s.createdAt) == k
  {
    var w := RecentWindow(start, endOfToday);
    ReportKeys(store, w, MonthKeyOf(cal), k);
    if exists s | s in store :: w.Contains(s.createdAt) && MonthKeyOf(cal)(s) == k {
      var s :| s in store && w.Contains(s.createdAt) && MonthKeyOf(cal)(s) == k;
      assert start <= s.createdAt <= endOfToday && MonthKey(cal, s.createdAt) == k;
    }
    if exists s | s in store :: start <= s.createdAt <= endOfToday && MonthKey(cal, s.createdAt) == k {
      var s :| s in store && start <= s.createdAt <= endOfToday && MonthKey(cal, s.createdAt) == k;
      assert w.Contains(s.createdAt) && MonthKeyOf(cal)(s) == k;
    }
  }

  /** A report has a bucket for key `k` exactly when some stored record inside
      the window has key `k`; its keys are distinct. */
  lemma ReportKeys(store: seq<Sample>, w: Window, keyOf: Sample -> string, k: string)
    ensures Distinct(BucketKeys(Aggregate(Query(store, w), keyOf)))
    ensures k in BucketKeys(Aggregate(Query(store, w), keyOf))
       <==> exists s | s in store :: w.Contains(s.createdAt) && keyOf(s) == k
  {
    var q := Query(store, w);
    var ks := KeysOf(q, keyOf);
    var bk := BucketKeys(Aggregate(q, keyOf));
    assert Distinct(bk) && (k in bk <==> k in ks) by {
      AggregateKeys(q, keyOf);
    }
    QueryKeys(store, w, keyOf, k);
  }

  /** Some record of a window query has key `k` exactly when some stored
      record inside the window has it. */
  lemma QueryKeys(store: seq<Sample>, w: Window, keyOf: Sample -> string, k: string)
    ensures k in KeysOf(Query(store, w), keyOf) <==> exists s | s in store :: w.Contains(s.createdAt) && keyOf(s) == k
  {
    var q := Query(store, w);
    var ks := KeysOf(q, keyOf);
    if k in ks {
      var j :| 0 <= j < |ks| && ks[j] == k;
      QueryContents(store, w, q[j]);
    }
    if exists s | s in store :: w.Contains(s.createdAt) && keyOf(s) == k {
      var s :| s in store && w.Contains(s.createdAt) && keyOf(s) == k;
      QueryContents(store, w, s);
      var j :| 0 <= j < |q| && q[j] == s;
      assert ks[j] == k;
    }
  }

  /** Two records share a monthly bucket exactly when they fall in the same
      (year, month, week of month). */
  lemma MonthKeySeparatesWeeks(cal: CalendarView, a: Sample, b: Sample)
    ensures MonthKeyOf(cal)(a) == MonthKeyOf(cal)(b) <==> WeekOf(cal, a.createdAt) == WeekOf(cal, b.createdAt)
  {
    if MonthKeyOf(cal)(a) == MonthKeyOf(cal)(b) {
      WeekKeyInjective(WeekOf(cal, a.createdAt), WeekOf(cal, b.createdAt));
    }
  }

  /** For a store with no zero minimum (one written only through
      `/insertData`), each weekly or monthly bucket reports the lowest minimum
      of the records in it. */
  lemma ReportMinimumIsLowest(store: seq<Sample>, w: Window, keyOf: Sample -> string)
    requires NoZeroMinimum(store)
    ensures var q := Query(store, w);
      forall i | 0 <= i < |Aggregate(q, keyOf)| ::
        Aggregate(q, keyOf)[i].bpm.minBPM == Lowest(Members(q, keyOf, Aggregate(q, keyOf)[i].key), MinField)
  {
    QueryKeepsNoZeroMinimum(store, w);
    BucketMinimumIsLowest(Query(store, w), keyOf);
  }
}

=== FILE: seqs.dfy ===
/** Order-preserving sequence combinators (`Array.prototype.filter` and `map`)
    and the facts about them that the rest of the model relies on. */
module Seqs {

  /** Keeps, in order, the elements satisfying `p` (`Array.prototype.filter`). */
  function Filter<T(!new)>(s: seq<T>, p: T -> bool): (r: seq<T>)
    ensures |r| <= |s|
    ensures forall i | 0 <= i < |r| :: p(r[i])
  {
    if |s| == 0 then []
    else Filter(s[..|s| - 1], p) + (if p(s[|s| - 1]) then [s[|s| - 1]] else [])
  }

  /** Every element occurs in the filtered sequence exactly as often as in the
      original when it satisfies `p`, and not at all otherwise. */
  lemma {:induction false} FilterMultiplicity<T(!new)>(s: seq<T>, p: T -> bool, x: T)
    ensures multiset(Filter(s, p))[x] == if p(x) then multiset(s)[x] else 0
  {
    if |s| > 0 {
      var n := |s| - 1;
      FilterMultiplicity(s[..n], p, x);
      assert s == s[..n] + [s[n]];
    }
  }

  /** Applies `f` to every element (`Array.prototype.map`). */
  function MapSeq<A, B>(f: A -> B, s: seq<A>): (r: seq<B>)
    ensures |r| == |s|
    ensures forall i | 0 <= i < |s| :: r[i] == f(s[i])
  {
    seq(|s|, i requires 0 <= i < |s| => f(s[i]))
  }

  /** Mapping distributes over concatenation. */
  lemma MapSeqAppend<A, B>(f: A -> B, a: seq<A>, b: seq<A>)
    ensures MapSeq(f, a + b) == MapSeq(f, a) + MapSeq(f, b)
  {
  }

  /** Every element of a filtered sequence comes from the original. */
  lemma {:induction false} FilterElementsFrom<T(!new)>(s: seq<T>, p: T -> bool)
    ensures forall i | 0 <= i < |Filter(s, p)| :: Filter(s, p)[i] in s
  {
    if |s| > 0 {
      var n := |s| - 1;
      FilterElementsFrom(s[..n], p);
      assert s == s[..n] + [s[n]];
    }
  }

  /** Filtering by a predicate that holds of every element changes nothing. */
  lemma {:induction false} FilterAll<T(!new)>(s: seq<T>, p: T -> bool)
    requires forall i | 0 <= i < |s| :: p(s[i])
    ensures Filter(s, p) == s
  {
    if |s| > 0 {
      var n := |s| - 1;
      FilterAll(s[..n], p);
      assert p(s[n]);
      assert s == s[..n] + [s[n]];
    }
  }

  /** Filter distributes over appending one element. */
  lemma FilterSnoc<T(!new)>(s: seq<T>, x: T, p: T -> bool)
    ensures Filter(s + [x], p) == Filter(s, p) + (if p(x) then [x] else [])
  {
    assert (s + [x])[..|s|] == s;
  }

  /** Mapping then filtering equals filtering by the pulled-back predicate then mapping. */
  lemma {:induction false} FilterMapCommute<A(!new), B(!new)>(s: seq<A>, f: A -> B, p: A -> bool, q: B -> bool)
    requires forall a :: q(f(a)) == p(a)
    ensures Filter(MapSeq(f, s), q) == MapSeq(f, Filter(s, p))
  {
    if |s| > 0 {
      var n := |s| - 1;
      FilterMapCommute(s[..n], f, p, q);
      assert MapSeq(f, s) == MapSeq(f, s[..n]) + [f(s[n])];
      FilterSnoc(MapSeq(f, s[..n]), f(s[n]), q);
      assert s == s[..n] + [s[n]];
      FilterSnoc(s[..n], s[n], p);
      var left := Filter(s[..n], p);
      if p(s[n]) {
        assert MapSeq(f, left + [s[n]]) == MapSeq(f, left) + [f(s[n])];
      }
    }
  }

  /** Two filters may be applied in either order. */
  lemma {:induction false} FilterFilterCommute<T(!new)>(s: seq<T>, p: T -> bool, q: T -> bool)
    ensures Filter(Filter(s, p), q) == Filter(Filter(s, q), p)
  {
    if |s| > 0 {
      var n := |s| - 1;
      var x := s[n];
      FilterFilterCommute(s[..n], p, q);
      var fp, fq := Filter(s[..n], p), Filter(s[..n], q);
      if p(x) { FilterSnoc(fp, x, q); } else { assert fp + [] == fp; }
      if q(x) { FilterSnoc(fq, x, p); } else { assert fq + [] == fq; }
    }
  }

  /** Filter distributes over concatenation. */
  lemma {:induction false} FilterSplit<T(!new)>(a: seq<T>, b: seq<T>, p: T -> bool)
    ensures Filter(a + b, p) == Filter(a, p) + Filter(b, p)
  {
    if |b| > 0 {
      var m := |b| - 1;
      FilterSplit(a, b[..m], p);
      assert a + b == (a + b[..m]) + [b[m]];
      assert b == b[..m] + [b[m]];
      FilterSnoc(a + b[..m], b[m], p);
      FilterSnoc(b[..m], b[m], p);
    } else {
      assert a + b == a;
    }
  }

  /** Filtering at a cut point filters the two sides. */
  lemma FilterCut<T(!new)>(s: seq<T>, n: nat, p: T -> bool)
    requires n <= |s|
    ensures Filter(s, p) == Filter(s[..n], p) + Filter(s[n..], p)
  {
    var lo, hi := s[..n], s[n..];
    assert s == lo + hi;
    FilterSplit(lo, hi, p);
  }

  /** Filtering a one-element sequence keeps the element or drops it. */
  lemma FilterSingleton<T(!new)>(x: T, p: T -> bool)
    ensures Filter([x], p) == if p(x) then [x] else []
  {
    FilterSnoc([], x, p);
    assert [] + [x] == [x];
  }

  /** Filtering keeps every key at most `b` if it was so before. */
  lemma FilterKeepsUpperBound<T(!new)>(s: seq<T>, p: T -> bool, key: T -> int, b: int)
    requires forall i | 0 <= i < |s| :: key(s[i]) <= b
    ensures forall i | 0 <= i < |Filter(s, p)| :: key(Filter(s, p)[i]) <= b
  {
    FilterElementsFrom(s, p);
  }

  /** Filtering keeps every key above `b` if it was so before. */
  lemma FilterKeepsLowerBound<T(!new)>(s: seq<T>, p: T -> bool, key: T -> int, b: int)
    requires forall i | 0 <= i < |s| :: b < key(s[i])
    ensures forall i | 0 <= i < |Filter(s, p)| :: b < key(Filter(s, p)[i])
  {
    FilterElementsFrom(s, p);
  }
}

=== FILE: sorting.dfy ===
/** Ascending order by an integer key, and the stable insertion sort used for
    both the store's ascending sort by creation time and the client's
    re-sort of its daily list. */
module Sorting {

  import opened Seqs

  /** `s` is ascending by `key` (equal keys allowed). */
  predicate SortedBy<T>(s: seq<T>, key: T -> int) {
    forall i, j | 0 <= i < j < |s| :: key(s[i]) <= key(s[j])
  }

  /** The position where `InsertByKey` places `x`: before the first element
      whose key exceeds `key(x)`, so after every element with an equal key. */
  function InsertionPoint<T>(x: T, s: seq<T>, key: T -> int): (p: nat)
    ensures p <= |s|
    ensures forall i | 0 <= i < p :: key(s[i]) <= key(x)
    ensures p < |s| ==> key(x) < key(s[p])
  {
    if |s| == 0 || key(x) < key(s[0]) then 0
    else 1 + InsertionPoint(x, s[1..], key)
  }

  /** Inserts `x` after every element whose key is not greater than its own. */
  function InsertByKey<T>(x: T, s: seq<T>, key: T -> int): (r: seq<T>)
    ensures |r| == |s| + 1
  {
    if |s| == 0 then [x]
    else if key(x) < key(s[0]) then [x] + s
    else [s[0]] + InsertByKey(x, s[1..], key)
  }

  /** Insertion adds exactly `x` and loses nothing. */
  lemma {:induction false} InsertAddsOne<T>(x: T, s: seq<T>, key: T -> int)
    ensures multiset(InsertByKey(x, s, key)) == multiset(s) + multiset{x}
  {
    if |s| > 0 && key(x) >= key(s[0]) {
      InsertAddsOne(x, s[1..], key);
      assert s == [s[0]] + s[1..];
    }
  }

  /** Stable insertion sort: each element, taken in order, is inserted after
      the already-sorted elements with an equal or smaller key. */
  function SortByKey<T>(s: seq<T>, key: T -> int): (r: seq<T>)
    ensures |r| == |s|
    ensures multiset(r) == multiset(s)
    ensures SortedBy(r, key)
  {
    if |s| == 0 then []
    else
      var sorted := SortByKey(s[..|s| - 1], key);
      InsertKeepsSorted(s[|s| - 1], sorted, key);
      InsertAddsOne(s[|s| - 1], sorted, key);
      assert s == s[..|s| - 1] + [s[|s| - 1]];
      InsertByKey(s[|s| - 1], sorted, key)
  }

  /** Insertion splices `x` into `s` at the insertion point and leaves the
      relative order of the elements of `s` unchanged. */
  lemma {:induction false} InsertSplices<T>(x: T, s: seq<T>, key: T -> int)
    ensures InsertByKey(x, s, key) == s[..InsertionPoint(x, s, key)] + [x] + s[InsertionPoint(x, s, key)..]
  {
    if |s| > 0 && key(x) >= key(s[0]) {
      var t := s[1..];
      var p := InsertionPoint(x, t, key);
      calc {
        InsertByKey(x, s, key);
        [s[0]] + InsertByKey(x, t, key);
        { InsertSplices(x, t, key); }
        [s[0]] + (t[..p] + [x] + t[p..]);
        { ConsSplice(s, p, x); }
        s[..p + 1] + [x] + s[p + 1..];
      }
    }
  }

  /** Splicing into the tail and then prepending the head is splicing one
      position further into the whole sequence. */
  lemma ConsSplice<T>(s: seq<T>, p: nat, x: T)
    requires 0 < |s| && p < |s|
    ensures [s[0]] + (s[1..][..p] + [x] + s[1..][p..]) == s[..p + 1] + [x] + s[p + 1..]
  {
    assert s[..p + 1] == [s[0]] + s[1..][..p];
    assert s[p + 1..] == s[1..][p..];
  }

  /** Inserting into a sorted sequence yields a sorted sequence. */
  lemma {:induction false} InsertKeepsSorted<T>(x: T, s: seq<T>, key: T -> int)
    requires SortedBy(s, key)
    ensures SortedBy(InsertByKey(x, s, key), key)
  {
    var p := InsertionPoint(x, s, key);
    var r := InsertByKey(x, s, key);
    assert r == s[..p] + [x] + s[p..] by {
      InsertSplices(x, s, key);
    }
    assert forall i | 0 <= i < p :: r[i] == s[i];
    assert forall i | p < i < |r| :: r[i] == s[i - 1];
    forall i, j | 0 <= i < j < |r| ensures key(r[i]) <= key(r[j]) {
      if j < p || i > p {
      } else if i == p {
        assert r[j] == s[j - 1];
      } else if j == p {
        assert r[i] == s[i];
      } else {
        assert r[i] == s[i] && r[j] == s[j - 1];
      }
    }
  }

  /** An element no smaller than everything in `s` goes to the end. */
  lemma {:induction false} InsertLargestAppends<T>(x: T, s: seq<T>, key: T -> int)
    requires forall i | 0 <= i < |s| :: key(s[i]) <= key(x)
    ensures InsertByKey(x, s, key) == s + [x]
  {
    if |s| > 0 {
      InsertLargestAppends(x, s[1..], key);
      assert s == [s[0]] + s[1..];
    }
  }

  /** Sorting an already sorted sequence changes nothing. */
  lemma {:induction false} SortSortedIsIdentity<T>(s: seq<T>, key: T -> int)
    requires SortedBy(s, key)
    ensures SortByKey(s, key) == s
  {
    if |s| > 0 {
      var n := |s| - 1;
      assert SortedBy(s[..n], key);
      SortSortedIsIdentity(s[..n], key);
      InsertLargestAppends(s[n], s[..n], key);
      assert s == s[..n] + [s[n]];
    }
  }

  /** Appending to a sorted sequence and re-sorting is a single insertion. */
  lemma AppendThenSortIsInsert<T>(s: seq<T>, x: T, key: T -> int)
    requires SortedBy(s, key)
    ensures SortByKey(s + [x], key) == InsertByKey(x, s, key)
  {
    assert (s + [x])[..|s|] == s;
    SortSortedIsIdentity(s, key);
  }

  /** A key-preserving map keeps a sequence sorted. */
  lemma MapKeepsSorted<A, B>(s: seq<A>, f: A -> B, keyA: A -> int, keyB: B -> int)
    requires forall a :: keyB(f(a)) == keyA(a)
    requires SortedBy(s, keyA)
    ensures SortedBy(MapSeq(f, s), keyB)
  {
  }

  /** Insertion commutes with any map that preserves keys. */
  lemma {:induction false} InsertCommutesWithMap<A, B>(x: A, s: seq<A>, f: A -> B, keyA: A -> int, keyB: B -> int)
    requires forall a :: keyB(f(a)) == keyA(a)
    ensures InsertByKey(f(x), MapSeq(f, s), keyB) == MapSeq(f, InsertByKey(x, s, keyA))
  {
    var fs := MapSeq(f, s);
    if |s| == 0 {
    } else if keyA(x) < keyA(s[0]) {
      assert MapSeq(f, [x] + s) == [f(x)] + fs;
    } else {
      InsertCommutesWithMap(x, s[1..], f, keyA, keyB);
      assert fs[1..] == MapSeq(f, s[1..]);
      var tail := InsertByKey(x, s[1..], keyA);
      assert MapSeq(f, [s[0]] + tail) == [f(s[0])] + MapSeq(f, tail);
    }
  }

  /** Insertion into a sorted sequence commutes with removing the elements
      that fail a predicate. */
  lemma InsertCommutesWithFilter<T(!new)>(x: T, s: seq<T>, key: T -> int, p: T -> bool)
    requires SortedBy(s, key)
    ensures Filter(InsertByKey(x, s, key), p)
         == if p(x) then InsertByKey(x, Filter(s, p), key) else Filter(s, p)
  {
    var n := InsertionPoint(x, s, key);
    var lo, hi := Filter(s[..n], p), Filter(s[n..], p);
    assert Filter(InsertByKey(x, s, key), p) == lo + Filter([x], p) + hi by {
      FilterAroundInsert(x, s, key, p);
    }
    assert Filter(s, p) == lo + hi by {
      FilterCut(s, n, p);
    }
    if p(x) {
      assert Filter([x], p) == [x] by {
        FilterSingleton(x, p);
      }
      assert InsertByKey(x, lo + hi, key) == lo + [x] + hi by {
        InsertBetweenFiltered(x, s, key, p);
      }
    } else {
      assert Filter([x], p) == [] by {
        FilterSingleton(x, p);
      }
      assert lo + [] + hi == lo + hi;
    }
  }

  /** The inserted element lands between the filtered halves. */
  lemma InsertBetweenFiltered<T(!new)>(x: T, s: seq<T>, key: T -> int, p: T -> bool)
    requires SortedBy(s, key)
    ensures InsertByKey(x, Filter(s[..InsertionPoint(x, s, key)], p) + Filter(s[InsertionPoint(x, s, key)..], p), key)
         == Filter(s[..InsertionPoint(x, s, key)], p) + [x] + Filter(s[InsertionPoint(x, s, key)..], p)
  {
    var n := InsertionPoint(x, s, key);
    var lo, hi := s[..n], s[n..];
    FilterKeepsUpperBound(lo, p, key, key(x));
    forall i | 0 <= i < |hi| ensures key(x) < key(hi[i]) {
      assert hi[i] == s[n + i];
    }
    FilterKeepsLowerBound(hi, p, key, key(x));
    InsertAfterPrefix(x, Filter(lo, p), Filter(hi, p), key);
  }

  /** Filtering a sorted sequence gives the sort of the filtered sequence. */
  lemma {:induction false} SortCommutesWithFilter<T(!new)>(s: seq<T>, key: T -> int, p: T -> bool)
    ensures Filter(SortByKey(s, key), p) == SortByKey(Filter(s, p), key)
  {
    if |s| > 0 {
      var n := |s| - 1;
      var x := s[n];
      SortCommutesWithFilter(s[..n], key, p);
      InsertCommutesWithFilter(x, SortByKey(s[..n], key), key, p);
      var f := Filter(s[..n], p);
      assert Filter(s, p) == f + (if p(x) then [x] else []);
      if p(x) {
        assert (f + [x])[..|f|] == f;
      } else {
        assert f + [] == f;
      }
    }
  }

  /** Filtering after an insertion filters the part before the insertion point
      and the inserted element followed by the rest. */
  lemma FilterAfterInsert<T(!new)>(x: T, s: seq<T>, key: T -> int, p: T -> bool)
    ensures Filter(InsertByKey(x, s, key), p)
         == Filter(s[..InsertionPoint(x, s, key)], p) + Filter([x] + s[InsertionPoint(x, s, key)..], p)
  {
    var n := InsertionPoint(x, s, key);
    var lo, hi := s[..n], [x] + s[n..];
    assert InsertByKey(x, s, key) == lo + hi by {
      InsertSplices(x, s, key);
    }
    FilterSplit(lo, hi, p);
  }

  /** Filtering after an insertion filters the two sides of the insertion point separately. */
  lemma FilterAroundInsert<T(!new)>(x: T, s: seq<T>, key: T -> int, p: T -> bool)
    ensures Filter(InsertByKey(x, s, key), p)
         == Filter(s[..InsertionPoint(x, s, key)], p) + Filter([x], p) + Filter(s[InsertionPoint(x, s, key)..], p)
  {
    var n := InsertionPoint(x, s, key);
    var lo, rest := Filter(s[..n], p), s[n..];
    var mid, hi := Filter([x], p), Filter(rest, p);
    assert Filter(InsertByKey(x, s, key), p) == lo + Filter([x] + rest, p) by {
      FilterAfterInsert(x, s, key, p);
    }
    assert Filter([x] + rest, p) == mid + hi by {
      FilterSplit([x], rest, p);
    }
    assert lo + (mid + hi) == lo + mid + hi;
  }

  /** Inserting after a prefix of smaller-or-equal keys and before a sorted
      suffix whose keys all exceed `key(x)` lands exactly between them. */
  lemma {:induction false} InsertAfterPrefix<T>(x: T, before: seq<T>, after: seq<T>, key: T -> int)
    requires forall i | 0 <= i < |before| :: key(before[i]) <= key(x)
    requires forall i | 0 <= i < |after| :: key(x) < key(after[i])
    ensures InsertByKey(x, before + after, key) == before + [x] + after
  {
    if |before| == 0 {
      assert before + after == after;
    } else {
      var tail := before[1..];
      assert forall i | 0 <= i < |tail| :: key(tail[i]) <= key(x) by {
        forall i | 0 <= i < |tail| ensures key(tail[i]) <= key(x) {
          assert tail[i] == before[i + 1];
        }
      }
      InsertAfterPrefix(x, tail, after, key);
      assert InsertByKey(x, before + after, key) == [before[0]] + InsertByKey(x, tail + after, key) by {
        var s := before + after;
        assert s[0] == before[0] && s[1..] == tail + after;
        InsertPassesHead(x, s, key);
      }
      assert [before[0]] + (tail + [x] + after) == before + [x] + after by {
        assert before == [before[0]] + tail;
      }
    }
  }

  /** An element whose key is not below the head's is inserted into the tail. */
  lemma InsertPassesHead<T>(x: T, s: seq<T>, key: T -> int)
    requires |s| > 0 && key(s[0]) <= key(x)
    ensures InsertByKey(x, s, key) == [s[0]] + InsertByKey(x, s[1..], key)
  {
  }
}
